=== FILE: README.md ===
# FreeCol message layer and native-settlement turn, modelled in Dafny

This project models two sequential pieces of FreeCol.

1. **The DOM message layer of `DOMMessage`.** A message is a document whose root
   element has a tag, a key-to-string attribute map and an ordered list of child
   nodes. Each child is either an element or a text node. The model covers:
   - building a message from a tag and attribute pairs;
   - the type queries;
   - root attribute access;
   - appending and clearing children;
   - collapsing a batch of elements into a `multiple` envelope;
   - the first-match child search;
   - the typed attribute getters and their defaults;
   - the identifier read;
   - the class name `createMessage` derives from a tag;
   - the write-scope gate of `toXMLElement`;
   - the stripping of the XML declaration in `elementToString`;
   - typed child extraction against a table of live game objects.
2. **The goods side of a native settlement's new turn** (`csNewTurn` and
   `consumeGoods` of `ServerIndianSettlement`). Goods are a map from goods type
   to count. Production, consumption, manufacturing, one possible birth and
   horse breeding run in that order, and a warehouse cap follows.

Trees are immutable values. Java `null` is `Option.None`. An exception that
escapes a call is `Result.Failure` carrying the exception's kind. A DOM
`getAttribute` answers `""` for an absent key, never `null`, and the model
states this explicitly (`Dom.GetAttributeNullable`).

Files, one module each:

- `wrappers.dfy` (`Wrappers`): Option, Result, Java exception kinds.
- `text.dfy` (`Text`): prefix tests, `String.indexOf`, ASCII case mapping,
  `Integer.parseInt`, `Integer.toString`, `Boolean.parseBoolean`.
- `dom.dfy` (`Dom`): elements and nodes, attribute access, `getChildElement`,
  the typed getters, `readId`.
- `message.dfy` (`DomMessage`): the message itself, batch collapsing,
  `createMessage` name derivation, `elementToString` preamble stripping.
- `scope.dfy` (`ScopedWrite`): write scopes and the `toXMLElement` overloads.
- `children.dfy` (`ChildExtraction`): `getChild`, `getChildren`, `mapChildren`.
- `settlement.dfy` (`IndianSettlementTurn`): `csNewTurn` and `consumeGoods`.

Behaviour of the code worth noting:

- `getBooleanAttribute` never substitutes the default for unparsable text.
  A present attribute that is not `true` (ignoring case) reads as `false`.
- `getChild` and `getChildren` throw `ClassCastException` when the child is a
  text node, rather than skipping it.
- `readId` and `mapChildren` do not do what their code evidently intends; see
  "## Findings". For each, the model holds the code as written and a corrected
  version with its intended property. `getChild` resolves identifiers through
  `readId` as written, so it cannot find an object named only by the legacy key
  (`ChildExtraction.GetChildMissesLegacyId`).
- `getType` has no contract of its own. `DomMessage.IsTypeCharacterization`
  states what `getType` and `isType` answer.

## Model

| member | source | states |
|---|---|---|
| `Text.IndexOf` | src/net/sf/freecol/common/networking/DOMMessage.java:521 | the result is -1 exactly when the pattern does not occur; otherwise it is an occurrence with no earlier one |
| `Text.ParseInt` | src/net/sf/freecol/common/networking/DOMMessage.java:434 | a text is accepted iff it is an optional `+` or `-`, then one or more decimal digits, with a signed value in the int range; the result is that signed value |
| `Text.ParseIntToString` | src/net/sf/freecol/common/networking/DOMMessage.java:205-207 | `Integer.parseInt` reads back every int that `Integer.toString` writes |
| `Text.ParseBoolean` | src/net/sf/freecol/common/networking/DOMMessage.java:415 | true exactly for the 4-letter text t/T, r/R, u/U, e/E; everything else is false |
| `Dom.SetAttribute` | src/net/sf/freecol/common/networking/DOMMessage.java:195-197 | after a set, the key is present with the new value; every other key keeps its presence and value; tag and children are unchanged |
| `Dom.AppendChild` | src/net/sf/freecol/common/networking/DOMMessage.java:220 | exactly one new last child, earlier children unchanged, tag and attributes unchanged |
| `Dom.FindTaggedFrom` | src/net/sf/freecol/common/networking/DOMMessage.java:315-321 | the scan returns the first position from `from` on holding an element with the tag, or none when no such position exists |
| `Dom.GetChildElement` | src/net/sf/freecol/common/networking/DOMMessage.java:313-322 | null exactly when no child is an element with the tag; otherwise the first such child, skipping text nodes |
| `Dom.GetChildElementAfterAppend` | src/net/sf/freecol/common/networking/DOMMessage.java:313-322 | appending never changes an existing first match; with no earlier match, the appended element is found exactly when its tag matches |
| `Dom.GetBooleanAttribute` | src/net/sf/freecol/common/networking/DOMMessage.java:410-419 | the default only for a null element or absent attribute; otherwise "equals `true` ignoring case" |
| `Dom.GetIntegerAttribute` | src/net/sf/freecol/common/networking/DOMMessage.java:429-438 | the default for a null element, an absent attribute or text `parseInt` rejects; otherwise the parsed value; an int default gives an int result |
| `Dom.GetStringAttribute` | src/net/sf/freecol/common/networking/DOMMessage.java:448-454 | the default for a null element or absent attribute, the stored text otherwise |
| `Dom.BooleanAttributeIgnoresDefaultWhenPresent` | src/net/sf/freecol/common/networking/DOMMessage.java:410-419 | a present `"yes"` reads as false even when the default is true |
| `Dom.TypedGettersReadBackSet` | src/net/sf/freecol/common/networking/DOMMessage.java:410-454 | each typed getter reads back, whatever its default, the string, int or boolean text that `setAttribute` stored |
| `Dom.IntegerAttributeDefaultsOnGarbage` | src/net/sf/freecol/common/networking/DOMMessage.java:429-438 | `"notanumber"` reads as the default |
| `Dom.IntegerAttributeDefaultsOnOverflow` | src/net/sf/freecol/common/networking/DOMMessage.java:429-438 | any all-digit text worth more than the largest int, and any `-` then digits worth more than the magnitude of the smallest int, reads as the default |
| `Dom.IntegerAttributeDefaultsOnIntMaxPlusOne` | src/net/sf/freecol/common/networking/DOMMessage.java:429-438 | `"2147483648"` reads as the default |
| `Dom.GetAttributeNullable` | src/net/sf/freecol/common/networking/DOMMessage.java:544 | the DOM read is never null, and an absent key reads as `""` |
| `Dom.ReadIdAsWritten` | src/net/sf/freecol/common/networking/DOMMessage.java:543-547 | as written, `readId` always equals the current-key read; the legacy fallback never runs |
| `Dom.ReadIdAsWrittenMissesLegacyKey` | src/net/sf/freecol/common/networking/DOMMessage.java:543-547 | an element carrying only the legacy key `ID="unit:7"` is read as `""` |
| `Dom.ReadId` | src/net/sf/freecol/common/networking/DOMMessage.java:543-547 | the current key when present, else the legacy key when present, else `""` |
| `Dom.ReadIdCorrection` | src/net/sf/freecol/common/networking/DOMMessage.java:543-547 | the corrected read agrees with the written one whenever the current key is present, and recovers `unit:7` from the legacy-only element |
| `DomMessage.SetPairsLastWins` | src/net/sf/freecol/common/networking/DOMMessage.java:115-118 | setting pairs in order yields exactly the keys at even positions, each bound to the value after its last occurrence |
| `DomMessage.NewMessage` | src/net/sf/freecol/common/networking/DOMMessage.java:111-119 | an odd-length list throws `ArrayIndexOutOfBounds`; otherwise the root has the tag, no children, and the last-wins attributes |
| `DomMessage.IsTypeCharacterization` | src/net/sf/freecol/common/networking/DOMMessage.java:162-177 | `isType(t)` holds iff the root's tag is `t`, or there is no root and `t` is `"invalid"`; a missing document and a missing root both report `"invalid"` |
| `DomMessage.GetMessageAttribute` | src/net/sf/freecol/common/networking/DOMMessage.java:185-187 | the root's stored text for a key it carries, `""` for one it lacks |
| `DomMessage.MessageAttributesOfNewMessage` | src/net/sf/freecol/common/networking/DOMMessage.java:185-217 | on a constructed message, `hasAttribute(k)` holds iff `k` is at a key position of the pair list; `getAttribute(k)` is the value of its last pair, or `""` when `k` is not a key |
| `DomMessage.NewMessageHasType` | src/net/sf/freecol/common/networking/DOMMessage.java:111-177 | a message built from a tag and an even-length pair list has that tag as its type |
| `DomMessage.SetMessageAttribute` | src/net/sf/freecol/common/networking/DOMMessage.java:185-217 | on the root: get-after-set returns the value, `hasAttribute` holds, other keys are unchanged, type and children are unchanged |
| `DomMessage.SetMessageIntAttribute` | src/net/sf/freecol/common/networking/DOMMessage.java:205-207 | the key is present and reads back as the int through `getIntegerAttribute` and `parseInt`; other keys, type and children are unchanged |
| `DomMessage.Add` | src/net/sf/freecol/common/networking/DOMMessage.java:219-222 | exactly one new last child equal to the element; earlier children, tag and attributes unchanged |
| `DomMessage.AddMessage` | src/net/sf/freecol/common/networking/DOMMessage.java:231-234 | the other message's root becomes the last child; type and root attributes are unchanged |
| `DomMessage.ClearChildren` | src/net/sf/freecol/common/networking/DOMMessage.java:235-241 | no children remain; tag and attributes unchanged |
| `DomMessage.ClearThenAdd` | src/net/sf/freecol/common/networking/DOMMessage.java:219-241 | clearing and then adding `a` and `b` leaves exactly `[a, b]` |
| `DomMessage.AsNodes` | src/net/sf/freecol/common/networking/DOMMessage.java:296-300 | the envelope's children are the elements, one node each, in order |
| `DomMessage.CollapseElements` | src/net/sf/freecol/common/networking/DOMMessage.java:285-302 | empty gives null; a singleton gives its element unwrapped; two or more give a fresh `multiple` element without attributes whose children are the inputs in order, and the caller's list loses its first element |
| `DomMessage.ElementsOfAsNodes` | src/net/sf/freecol/common/networking/DOMMessage.java:296-300 | reading the element children of the envelope gives back the wrapped list |
| `DomMessage.ExpandCollapse` | src/net/sf/freecol/common/networking/DOMMessage.java:285-302 | unwrapping a collapsed batch restores the batch in order; the one exception is a single element that is itself tagged `multiple` |
| `DomMessage.HandlerClassName` | src/net/sf/freecol/common/networking/DOMMessage.java:131-134 | an empty tag throws `StringIndexOutOfBounds`; otherwise the name is the networking package, then the tag with its first letter upper-cased, then `Message` |
| `DomMessage.TagOfHandlerClassNameRoundTrip` | src/net/sf/freecol/common/networking/DOMMessage.java:131-134 | the tag can be read back from the class name whenever its first character is not an upper-case letter |
| `DomMessage.HandlerClassNameCollisions` | src/net/sf/freecol/common/networking/DOMMessage.java:131-134 | two tags map to the same class iff they differ at most in the case of the first letter |
| `DomMessage.CreateMessage` | src/net/sf/freecol/common/networking/DOMMessage.java:129-146 | a null element gives null; otherwise only the derived class name is tried, and an instantiation failure gives null |
| `DomMessage.UnknownTagIsDropped` | src/net/sf/freecol/common/networking/DOMMessage.java:138-145 | a tag whose class cannot be instantiated yields null, not an error |
| `DomMessage.StripXmlDeclaration` | src/net/sf/freecol/common/networking/DOMMessage.java:518-525 | the text is shortened iff it starts with `<?xml` and contains `?>`; a shortened result is the suffix after the first `?>`; otherwise the text is unchanged |
| `DomMessage.StripXmlDeclarationRoundTrip` | src/net/sf/freecol/common/networking/DOMMessage.java:518-525 | stripping a declaration without an inner `?>`, placed before any body, returns the body |
| `ScopedWrite.ToXmlElementChecked` | src/net/sf/freecol/common/networking/DOMMessage.java:611-618 | an invalid scope throws `IllegalState`, whatever the object would write; a valid scope gives a full write under that scope |
| `ScopedWrite.ScopeFor` | src/net/sf/freecol/common/networking/DOMMessage.java:591-596 | the derived scope is always valid: server for a null player, else client for that player |
| `ScopedWrite.UncheckedPathsUseValidScopes` | src/net/sf/freecol/common/networking/DOMMessage.java:591-596 | the Player overload, which skips the validity check, gives exactly what the checked writer gives under the scope it derives, for every player and writer |
| `ScopedWrite.PartialWriteUsesServerScope` | src/net/sf/freecol/common/networking/DOMMessage.java:629-633 | the partial write, which also skips the check, writes the requested fields under the scope derived for a null player, a scope the check accepts |
| `ScopedWrite.AddObject` | src/net/sf/freecol/common/networking/DOMMessage.java:223-230 | the written element becomes the last child and the root attributes are unchanged; a null element from the writer throws `NullPointer` |
| `ChildExtraction.Cast` | src/net/sf/freecol/common/networking/DOMMessage.java:348-350 | a cast result is an instance of the class; an instance passes unchanged; anything else becomes null |
| `ChildExtraction.GetChild` | src/net/sf/freecol/common/networking/DOMMessage.java:337-358 | an out-of-range index, negative ones included, gives null; a text child throws `ClassCast` and nothing else throws; with no game the only possible object is a fresh Game |
| `ChildExtraction.GetChildWithoutGame` | src/net/sf/freecol/common/networking/DOMMessage.java:343-351 | with no game, a fresh Game is returned iff Game itself is requested; every other class gives null |
| `ChildExtraction.GetChildPrefersTable` | src/net/sf/freecol/common/networking/DOMMessage.java:343-355 | once the identifier resolves to an instance of a requested game-object class, that object is returned and the factory is never consulted: games sharing the table agree |
| `ChildExtraction.GetChildIgnoresTableForPlainClasses` | src/net/sf/freecol/common/networking/DOMMessage.java:343-353 | for a class that is not a game object the table is never consulted: games sharing the factory agree |
| `ChildExtraction.GetChildMissesLegacyId` | src/net/sf/freecol/common/networking/DOMMessage.java:347 | a child naming an existing unit only as `ID="unit:7"` is not found, because `readId` reads `""`; with a factory that yields nothing the result is null |
| `ChildExtraction.GetChildFallsBackToFactory` | src/net/sf/freecol/common/networking/DOMMessage.java:352-354 | with a game, when the class is not a game object or the identifier does not resolve to an instance of it, the result is whatever `newInstance` gives |
| `ChildExtraction.GetChildIsInstance` | src/net/sf/freecol/common/networking/DOMMessage.java:337-358 | any object returned is an instance of the requested class, given a factory that honours classes |
| `ChildExtraction.PresentOfAllSome` | src/net/sf/freecol/common/networking/DOMMessage.java:375 | keeping the non-null results loses nothing when none is null |
| `ChildExtraction.ChildrenKeepEveryFound` | src/net/sf/freecol/common/networking/DOMMessage.java:369-378 | when every child is an element and `getChild` finds an object at every index, `getChildren` yields one object per child, in index order |
| `ChildExtraction.GetChildren` | src/net/sf/freecol/common/networking/DOMMessage.java:369-378 | throws iff some child is a text node; otherwise exactly the non-null `getChild` results in index order, never more than the child count |
| `ChildExtraction.MapChildrenAsWritten` | src/net/sf/freecol/common/networking/DOMMessage.java:389-400 | as written: throws `ClassCast` iff some child is a text node; otherwise no more results than children |
| `ChildExtraction.MapChildren` | src/net/sf/freecol/common/networking/DOMMessage.java:389-400 | corrected: exactly the mapper's non-null results for the element children, in order |
| `ChildExtraction.MapChildrenAgreeWithoutText` | src/net/sf/freecol/common/networking/DOMMessage.java:389-400 | the written and the corrected versions agree when there are no text children |
| `ChildExtraction.MapChildrenAsWrittenFailsOnText` | src/net/sf/freecol/common/networking/DOMMessage.java:393-396 | one newline text node between two elements makes the written version throw, while the corrected one maps both elements |
| `IndianSettlementTurn.AddGoods` | src/net/sf/freecol/server/model/ServerIndianSettlement.java:104 | one count moves by the amount; no other count changes |
| `IndianSettlementTurn.RemoveGoods` | src/net/sf/freecol/server/model/ServerIndianSettlement.java:126 | one count drops by the amount; no other count changes |
| `IndianSettlementTurn.ConsumeGoods` | src/net/sf/freecol/server/model/ServerIndianSettlement.java:180-185 | a non-positive count is untouched; a positive one becomes max(count - amount, 0), so it never goes negative; other types are untouched |
| `IndianSettlementTurn.ProducePhaseCredits` | src/net/sf/freecol/server/model/ServerIndianSettlement.java:102-105 | each type ends production with its stock plus the production of every listed type stored as it |
| `IndianSettlementTurn.ConsumePhaseClamps` | src/net/sf/freecol/server/model/ServerIndianSettlement.java:110-112 | consumption leaves non-positive counts alone; a positive count whose consumption is non-negative stays between 0 and its start |
| `IndianSettlementTurn.ConsumePhaseExact` | src/net/sf/freecol/server/model/ServerIndianSettlement.java:110-112 | with each type listed once, a listed type with positive stock ends at max(stock - consumption, 0) and all else is unchanged |
| `IndianSettlementTurn.ManufactureStep` | src/net/sf/freecol/server/model/ServerIndianSettlement.java:115-130 | fires only under the guard and with `unitCount / 3 > 0`; it then moves exactly that many units from raw material to a distinct product, conserving their sum and touching nothing else |
| `IndianSettlementTurn.ManufactureNeedsThreeUnits` | src/net/sf/freecol/server/model/ServerIndianSettlement.java:124-128 | with fewer than three units the manufacturing phase changes nothing |
| `IndianSettlementTurn.ManufactureOnlyMovesGoods` | src/net/sf/freecol/server/model/ServerIndianSettlement.java:115-130 | a type that is not a raw material with a product, and is not the product of a listed type, keeps its count through the phase, whether or not it is listed |
| `IndianSettlementTurn.BirthStep` | src/net/sf/freecol/server/model/ServerIndianSettlement.java:134-155 | no change unless all three conditions hold; a birth adds exactly one unit of the chosen born type and consumes food and rum, each clamped; a non-positive food or rum count is left as it is; other goods are untouched |
| `IndianSettlementTurn.BreedStep` | src/net/sf/freecol/server/model/ServerIndianSettlement.java:157-168 | the horse increase is between 0 and `MAX_HORSES_PER_TURN`; it is positive iff the stock reaches the breeding number and food is available, and then equals min(2, available); other goods are untouched |
| `IndianSettlementTurn.RunStages` | src/net/sf/freecol/server/model/ServerIndianSettlement.java:96-172 | the phase snapshots in order: production credited, consumption clamped, manufacturing idle below three units, a birth exactly when its three conditions hold and no change otherwise, the birth touching only food and rum, each clamped, horses bred by exactly min(2, available) when breeding applies and by 0 otherwise, cap applied last |
| `IndianSettlementTurn.NewTurn` | src/net/sf/freecol/server/model/ServerIndianSettlement.java:96-172 | a unit joins the owned units iff the birth conditions hold after manufacturing, and then it is the rolled born type; the goods are the cap of the bred goods; wanted goods are recomputed from the capped result |

## Left out

- Parsing (`readDocument`, the `InputStream` constructor) is parser I/O: buffered mark/reset for dumping bad input, and logging.
- `createNewDocument` and the `synchronized` blocks are about concurrency, which this model does not cover.
- `Introspector.instantiate` is reflection. It is the parameter `instantiate` of `DomMessage.CreateMessage`: its result for the derived name, or null for a failure. The game that the message constructor receives is folded into `instantiate`, which is fixed per call.
- Logging is not modelled: the warning `createMessage` logs when instantiation fails (DOMMessage.java:141-142) and the one `elementToString` logs when the transformer fails (DOMMessage.java:528). `createMessage`'s null result in that case is modelled; the transformer failure of `elementToString` is covered by the Transformer lines below.
- `DomMessage.GetMessageAttribute`, `DomMessage.HasMessageAttribute`, `DomMessage.SetMessageAttribute`, `DomMessage.SetMessageIntAttribute`, `DomMessage.Add`, `DomMessage.AddMessage`, `DomMessage.ClearChildren` and `ScopedWrite.AddObject` require a root. On a message whose document or root is null, the source throws `NullPointerException`, and that error path is not modelled. Only `getType` and `isType` give that state an answer.
- The Transformer and DocumentBuilder round trips in `elementToString`, `readFromXMLElement` and the private `toXMLElement` are foreign library calls.
- `elementToString` is modelled only by its declaration stripping.
- Its `null` return on `TransformerException` is not modelled.
- `fco.toXML`, `fco.toXMLPartial` and the re-parse are opaque. Together they form the `ObjectWriter` parameter.
- Exceptions thrown inside the object writer (`IllegalStateException`, `RuntimeException`) are not modelled.
- `readFromXML`, which populates the extracted object, is domain code. `ChildExtraction.GetChild` returns the object it selects, unpopulated. The `RuntimeException` that population can throw is not modelled.
- `FreeColXMLWriter.WriteScope` is not part of this model. Its validity rule is taken as "a client scope carries a player and no other scope does".
- `FreeColObject` is not part of this model. `ID_ATTRIBUTE_TAG` and `ID_ATTRIBUTE` are taken as `"id"` and `"ID"`. The proofs use only that the two keys differ.
- DOM name checks are not modelled: `createElement` and `setAttribute` throw a `DOMException` for names that are not XML names.
- Ownership is not modelled. `importNode` deep copies are identical values in a value model. Moving the first element into the `multiple` envelope also detaches it from any former parent, and that effect is not visible here.
- `DomMessage.AddMessage`: adds the root element that the base `toXMLElement` (DOMMessage.java:249-251) returns. Subclasses are expected to override that stub, and their serialisations are not part of this model.
- `toString` (DOMMessage.java:691-693) and `getFreeColProtocolVersion` carry no logic. The version is the constant `DomMessage.ProtocolVersion`.
- `DomMessage.HandlerClassName`: the first letter is upper-cased as in a locale with the ASCII mapping. `toUpperCase` follows the default locale, and under a Turkish or Azeri locale `i` becomes `İ`, so a tag such as `incite` would name a class that does not exist.
- Case mapping is modelled for ASCII letters only. This affects `toUpperCase` in `createMessage` and `equalsIgnoreCase` in `parseBoolean`.
- `Integer.parseInt` is modelled for ASCII digits only. Java also accepts other Unicode decimal digits.
- `FreeColModFile` is file and zip I/O plus i18n lookups, so it is not part of this model.
- `GoodsContainer`, `Specification` and `IndianSettlement` are not part of this model. `addGoods` and `removeGoods` are plain addition and subtraction, so the container's own error checks and clamping on negative results are not modelled.
- `getProductionOf`, `getConsumptionOf`, `getWantedGoodsAmount`, `getFoodConsumption`, `getWarehouseCapacity`, `removeAbove` and `updateWantedGoods` are uninterpreted inputs. Each is taken as fixed for the whole turn.
- `FOOD_PER_COLONIST` and `KEEP_RAW_MATERIAL` are inputs taken as non-negative.
- Java 32-bit overflow of goods counts is not modelled. That includes `4 * rum` in the birth test. Counts are unbounded integers.
- `Utils.getRandomMember` is the `roll` index, with `roll < |bornTypes|` as `Random.nextInt` promises.
- Building the `ServerUnit`, `setIndianSettlement` and logging are not modelled. The new unit appears only as its type appended to the owned units.
- `IndianSettlementTurn.RunStages`: manufacturing is characterised per step and by the idle and untouched-type lemmas, not by a closed formula for the whole phase. Each step reads counts that earlier steps may have changed.
- `IndianSettlementTurn.NewTurn`: says nothing about the capped goods beyond their being `removeAbove` of the bred goods, because `removeAbove` is an input.

## Findings

| source | as written | input that shows it | evidently intended | confidence | as-written member | corrected member |
|---|---|---|---|---|---|---|
| src/net/sf/freecol/common/networking/DOMMessage.java:543-547 | the legacy key `ID` is read only when `getAttribute("id")` returns null, which a DOM never does (absent reads as `""`) | an element `<unit ID="unit:7"/>` reads as `""`, so `getChild` looks it up under `""` and misses the unit | fall back to the legacy key when the current key is absent, for compatibility with old peers | high (not executed) | `Dom.ReadIdAsWritten` | `Dom.ReadId` |
| src/net/sf/freecol/common/networking/DOMMessage.java:389-400 | each child is cast to `Element` before the `e == null` test, so a text child throws `ClassCastException` and the test never skips anything | `<multiple><a/>` newline `<b/></multiple>` throws instead of mapping `a` and `b` | skip non-element children and map the rest in order | medium (not executed) | `ChildExtraction.MapChildrenAsWritten` | `ChildExtraction.MapChildren` |

=== FILE: children.dfy ===
/** Typed child extraction from a message element: getChild, getChildren and
    mapChildren, resolving identifiers against an abstract table of live
    game objects. */
module ChildExtraction {
  import opened Wrappers
  import opened Dom

  /** A Java class, by name and the names of all its proper supertypes. */
  datatype ClassRef = ClassRef(name: string, supertypes: set<string>)

  /** Class.isAssignableFrom, read backwards: `c` is `ancestor` or a subclass of it. */
  predicate SubclassOf(c: ClassRef, ancestor: string) {
    c.name == ancestor || ancestor in c.supertypes
  }

  const GameObjectClassName: string := "FreeColGameObject"
  const GameClassName: string := "Game"

  /** net.sf.freecol.common.model.Game. */
  const GameClass: ClassRef := ClassRef(GameClassName, {GameObjectClassName, "FreeColObject"})

  /** A class hierarchy that agrees with Game's place in it: every subclass of
      Game is a game object, and no proper subclass of Game is also one of
      Game's own supertypes. */
  predicate ConsistentWithGame(c: ClassRef) {
    (SubclassOf(c, GameClassName) ==> SubclassOf(c, GameObjectClassName))
    && (GameClassName in c.supertypes ==> c.name !in GameClass.supertypes)
  }

  /** A game object: one held by the game (or made by its factory), or the
      fresh Game built for a message that arrives before any game exists. */
  datatype GameObject = Existing(cls: ClassRef, id: string) | FreshGame

  function ClassOf(o: GameObject): ClassRef {
    match o
    case Existing(c, _) => c
    case FreshGame => GameClass
  }

  /** Class.isInstance. */
  predicate InstanceOf(o: GameObject, c: ClassRef) {
    SubclassOf(ClassOf(o), c.name)
  }

  /** The game context: its object table (getFreeColGameObject) and its
      factory newInstance(class, false), which may yield null. */
  datatype Game = Game(objects: map<string, GameObject>, newInstance: ClassRef -> Option<GameObject>)

  /** A factory that only ever yields instances of the class requested. */
  ghost predicate FactoryRespectsClass(g: Game) {
    forall c :: g.newInstance(c).Some? ==> InstanceOf(g.newInstance(c).value, c)
  }

  function Lookup(g: Game, id: string): Option<GameObject> {
    if id in g.objects then Some(g.objects[id]) else None
  }

  /** returnClass.cast(o) with its ClassCastException swallowed: an object
      of another class becomes null. */
  function Cast(o: Option<GameObject>, c: ClassRef): (r: Option<GameObject>)
    ensures r.Some? ==> InstanceOf(r.value, c) && r == o
    ensures o.Some? && InstanceOf(o.value, c) ==> r == o
  {
    if o.Some? && InstanceOf(o.value, c) then o else None
  }

  /** The object the first branch of getChild finds: by identifier in the
      game's table, or, with no game, a fresh Game when a subclass of Game
      is requested. The identifier is read by readId as it is written, so an
      element carrying only the legacy key is looked up under "". */
  function ResolveById(game: Option<Game>, e: Element, c: ClassRef): Option<GameObject>
  {
    match game
    case None => if SubclassOf(c, GameClassName) then Some(FreshGame) else None
    case Some(g) => Lookup(g, ReadIdAsWritten(e))
  }

  /** getChild. An index out of range (negative ones included, for which the
      DOM's item() answers null) yields null. A text node at the index makes
      the cast to Element throw. For a game-object class the identifier is
      resolved first; failing that, a game's factory is asked for a new
      instance. Populating the instance from the element (readFromXML) is
      the object's own code and is not part of this model. */
  function GetChild(game: Option<Game>, e: Element, index: int, c: ClassRef): (r: Result<Option<GameObject>>)
    ensures (index < 0 || index >= |e.children|) ==> r == Success(None)
    ensures 0 <= index < |e.children| ==> (r.Failure? <==> e.children[index].TextNode?)
    ensures r.Failure? ==> r.error == ClassCast
    ensures game.None? && r.Success? && r.value.Some? ==> r.value == Some(FreshGame)
  {
    if index < 0 || index >= |e.children| then Success(None)
    else match e.children[index]
      case TextNode(_) => Failure(ClassCast)
      case ElementNode(child) =>
        var found := if SubclassOf(c, GameObjectClassName) then Cast(ResolveById(game, child, c), c) else None;
        if found.None? && game.Some? then Success(game.value.newInstance(c))
        else Success(found)
  }

  /** With no game, only Game itself can be extracted, as a fresh Game; every
      other class, game object or not, yields null. */
  lemma GetChildWithoutGame(e: Element, index: int, c: ClassRef)
    requires 0 <= index < |e.children| && e.children[index].ElementNode?
    requires ConsistentWithGame(c)
    ensures GetChild(None, e, index, c) == Success(if c.name == GameClassName then Some(FreshGame) else None)
  {
    if c.name != GameClassName && SubclassOf(c, GameClassName) {
      assert !InstanceOf(FreshGame, c);
    }
  }

  /** With a game, the factory is consulted only when the table misses: once
      the identifier resolves to an instance of a game-object class, two
      games that share the table give the same answer, whatever their
      factories do. */
  lemma GetChildPrefersTable(g1: Game, g2: Game, e: Element, index: int, c: ClassRef)
    requires 0 <= index < |e.children| && e.children[index].ElementNode?
    requires g1.objects == g2.objects
    requires SubclassOf(c, GameObjectClassName)
    requires var o := Lookup(g1, ReadIdAsWritten(e.children[index].element)); o.Some? && InstanceOf(o.value, c)
    ensures GetChild(Some(g1), e, index, c) == GetChild(Some(g2), e, index, c)
    ensures GetChild(Some(g1), e, index, c).value == Lookup(g1, ReadIdAsWritten(e.children[index].element))
  {
  }

  /** For a class that is not a game object the table is never consulted:
      two games that share the factory give the same answer, whatever
      objects they hold. */
  lemma GetChildIgnoresTableForPlainClasses(g1: Game, g2: Game, e: Element, index: int, c: ClassRef)
    requires g1.newInstance == g2.newInstance
    requires !SubclassOf(c, GameObjectClassName)
    ensures GetChild(Some(g1), e, index, c) == GetChild(Some(g2), e, index, c)
  {
  }

  /** The factory is the fallback: with a game, when the class is not a game
      object or the identifier does not resolve to an instance of it,
      getChild answers whatever newInstance answers. */
  lemma GetChildFallsBackToFactory(g: Game, e: Element, index: int, c: ClassRef)
    requires 0 <= index < |e.children| && e.children[index].ElementNode?
    requires var o := Lookup(g, ReadIdAsWritten(e.children[index].element));
      !SubclassOf(c, GameObjectClassName) || !(o.Some? && InstanceOf(o.value, c))
    ensures GetChild(Some(g), e, index, c) == Success(g.newInstance(c))
  {
  }

  /** Because getChild reads identifiers with readId as written, a child
      that names an existing unit only under the legacy key is not found:
      the factory is asked instead, and a factory that yields nothing makes
      the result null although the unit is in the table. */
  lemma GetChildMissesLegacyId(unitClass: ClassRef, factory: ClassRef -> Option<GameObject>)
    requires SubclassOf(unitClass, GameObjectClassName)
    requires forall c :: factory(c).None?
    ensures var u := Existing(unitClass, "unit:7");
      var g := Game(map["unit:7" := u], factory);
      var e := Element("units", map[], [ElementNode(Element("unit", map[IdAttributeLegacy := "unit:7"], []))]);
      Lookup(g, "unit:7") == Some(u) && GetChild(Some(g), e, 0, unitClass) == Success(None)
  {
  }

  /** Whatever getChild returns is an instance of the requested class,
      provided the game's factory honours the class it is given. */
  lemma GetChildIsInstance(game: Option<Game>, e: Element, index: int, c: ClassRef)
    requires game.Some? ==> FactoryRespectsClass(game.value)
    requires ConsistentWithGame(c)
    requires GetChild(game, e, index, c).Success? && GetChild(game, e, index, c).value.Some?
    ensures InstanceOf(GetChild(game, e, index, c).value.value, c)
  {
    if game.None? {
      GetChildWithoutGame(e, index, c);
    }
  }

  // ---------------------------------------------------------------------
  // getChildren and mapChildren

  /** The present values of a list of nullable results, in order. */
  function Present<T>(xs: seq<Option<T>>): (r: seq<T>)
    ensures |r| <= |xs|
  {
    if |xs| == 0 then []
    else Present(xs[..|xs| - 1]) + (if xs[|xs| - 1].Some? then [xs[|xs| - 1].value] else [])
  }

  /** Present skips exactly the nulls: when there are none, nothing is lost. */
  lemma {:induction false} PresentOfAllSome<T>(xs: seq<Option<T>>)
    requires forall i :: 0 <= i < |xs| ==> xs[i].Some?
    ensures |Present(xs)| == |xs|
    ensures forall i :: 0 <= i < |xs| ==> Present(xs)[i] == xs[i].value
  {
    if |xs| > 0 {
      PresentOfAllSome(xs[..|xs| - 1]);
    }
  }

  /** What getChild yields at each index, for a list of element children. */
  function ChildOutcomes(game: Option<Game>, e: Element, c: ClassRef): seq<Option<GameObject>>
    requires forall i :: 0 <= i < |e.children| ==> e.children[i].ElementNode?
  {
    seq(|e.children|, i requires 0 <= i < |e.children| => GetChild(game, e, i, c).value)
  }

  /** When every child is an element and getChild finds an object at every
      index, getChildren's result holds one object per child, in order. */
  lemma ChildrenKeepEveryFound(game: Option<Game>, e: Element, c: ClassRef)
    requires forall i :: 0 <= i < |e.children| ==> e.children[i].ElementNode?
    requires forall i :: 0 <= i < |e.children| ==> GetChild(game, e, i, c).value.Some?
    ensures |Present(ChildOutcomes(game, e, c))| == |e.children|
    ensures forall i :: 0 <= i < |e.children| ==>
      Present(ChildOutcomes(game, e, c))[i] == GetChild(game, e, i, c).value.value
  {
    var os := ChildOutcomes(game, e, c);
    assert forall i :: 0 <= i < |os| ==> os[i] == GetChild(game, e, i, c).value;
    PresentOfAllSome(os);
  }

  /** getChildren: getChild at every index in order, keeping the non-null
      results. A text child makes its getChild throw, and the exception
      escapes the loop. */
  method GetChildren(game: Option<Game>, e: Element, c: ClassRef) returns (r: Result<seq<GameObject>>)
    ensures r.Failure? <==> exists i :: 0 <= i < |e.children| && e.children[i].TextNode?
    ensures r.Failure? ==> r.error == ClassCast
    ensures r.Success? ==> r.value == Present(ChildOutcomes(game, e, c))
    ensures r.Success? ==> |r.value| <= |e.children|
  {
    var acc: seq<GameObject> := [];
    var outcomes: seq<Option<GameObject>> := [];
    var i := 0;
    while i < |e.children|
      invariant 0 <= i <= |e.children|
      invariant forall j :: 0 <= j < i ==> e.children[j].ElementNode?
      invariant |outcomes| == i
      invariant forall j :: 0 <= j < i ==> GetChild(game, e, j, c) == Success(outcomes[j])
      invariant acc == Present(outcomes)
    {
      var t := GetChild(game, e, i, c);
      if t.Failure? {
        assert e.children[i].TextNode?;
        return Failure(t.error);
      }
      assert e.children[i].ElementNode?;
      assert (outcomes + [t.value])[..i] == outcomes;
      outcomes := outcomes + [t.value];
      if t.value.Some? {
        acc := acc + [t.value.value];
      }
      i := i + 1;
    }
    ghost var expected := ChildOutcomes(game, e, c);
    assert forall j :: 0 <= j < |outcomes| ==> outcomes[j] == expected[j];
    assert outcomes == expected;
    return Success(acc);
  }

  /** What the mapper yields for each child, treating a text child as null. */
  function MappedOutcomes<T>(ns: seq<Node>, mapper: Element -> Option<T>): seq<Option<T>>
  {
    seq(|ns|, i requires 0 <= i < |ns| => if ns[i].ElementNode? then mapper(ns[i].element) else None)
  }

  /** mapChildren as written: every child is cast to Element before the null
      test, so a text child throws ClassCastException and the test never
      skips anything. */
  function MapChildrenAsWritten<T>(ns: seq<Node>, mapper: Element -> Option<T>): (r: Result<seq<T>>)
    ensures r.Failure? <==> exists i :: 0 <= i < |ns| && ns[i].TextNode?
    ensures r.Failure? ==> r.error == ClassCast
    ensures r.Success? ==> |r.value| <= |ns|
  {
    if |ns| == 0 then Success([])
    else
      match MapChildrenAsWritten(ns[..|ns| - 1], mapper)
      case Failure(x) => Failure(x)
      case Success(prefix) =>
        match ns[|ns| - 1]
        case TextNode(_) => Failure(ClassCast)
        case ElementNode(el) => Success(prefix + (match mapper(el) case Some(v) => [v] case None => []))
  }

  /** mapChildren as intended: the mapper's non-null results for the element
      children, in order, text children skipped. */
  function MapChildren<T>(ns: seq<Node>, mapper: Element -> Option<T>): (r: seq<T>)
    ensures |r| <= |ns|
    ensures r == Present(MappedOutcomes(ns, mapper))
  {
    if |ns| == 0 then []
    else
      var prefix := ns[..|ns| - 1];
      assert MappedOutcomes(ns, mapper)[..|ns| - 1] == MappedOutcomes(prefix, mapper);
      MapChildren(prefix, mapper)
        + (match ns[|ns| - 1]
           case TextNode(_) => []
           case ElementNode(el) => match mapper(el) case Some(v) => [v] case None => [])
  }

  /** The written and the intended mapChildren agree whenever the element has
      no text children. */
  lemma {:induction false} MapChildrenAgreeWithoutText<T>(ns: seq<Node>, mapper: Element -> Option<T>)
    requires forall i :: 0 <= i < |ns| ==> ns[i].ElementNode?
    ensures MapChildrenAsWritten(ns, mapper) == Success(MapChildren(ns, mapper))
  {
    if |ns| > 0 {
      MapChildrenAgreeWithoutText(ns[..|ns| - 1], mapper);
    }
  }

  /** A single whitespace text node between two elements makes the written
      mapChildren throw, where the intended one maps both elements. */
  lemma MapChildrenAsWrittenFailsOnText(a: Element, b: Element)
    ensures MapChildrenAsWritten([ElementNode(a), TextNode("\n"), ElementNode(b)], (x: Element) => Some(x.tag))
      == Failure(ClassCast)
    ensures MapChildren([ElementNode(a), TextNode("\n"), ElementNode(b)], (x: Element) => Some(x.tag))
      == [a.tag, b.tag]
  {
    var ns := [ElementNode(a), TextNode("\n"), ElementNode(b)];
    assert ns[..2][..1] == [ElementNode(a)];
    assert ns[..2] == [ElementNode(a), TextNode("\n")];
    assert ns[1].TextNode?;
  }
}

=== FILE: dom.dfy ===
/** The W3C DOM tree a message is made of, and the static element helpers of
    DOMMessage that read it: first-match child search, typed attribute
    getters with defaults, and the identifier read. */
module Dom {
  import opened Wrappers
  import opened Text

  /** An element: its tag, its attributes (keys are unique, order is
      irrelevant) and its ordered child nodes. */
  datatype Element = Element(tag: string, attributes: map<string, string>, children: seq<Node>)

  /** A child node is either an element or a text node. */
  datatype Node = ElementNode(element: Element) | TextNode(text: string)

  /** Element.hasAttribute. */
  predicate HasAttribute(e: Element, key: string) {
    key in e.attributes
  }

  /** Element.getAttribute: the attribute's value, or the empty string when
      the element has no such attribute. A DOM getAttribute never yields null. */
  function GetAttribute(e: Element, key: string): string {
    if key in e.attributes then e.attributes[key] else ""
  }

  /** Element.setAttribute: adds the attribute or replaces its value. */
  function SetAttribute(e: Element, key: string, value: string): (r: Element)
    ensures r.tag == e.tag && r.children == e.children
    ensures HasAttribute(r, key) && GetAttribute(r, key) == value
    ensures forall k :: k != key ==>
      (HasAttribute(r, k) <==> HasAttribute(e, k)) && GetAttribute(r, k) == GetAttribute(e, k)
  {
    e.(attributes := e.attributes[key := value])
  }

  /** Node.appendChild(document.importNode(child, true)): the imported deep
      copy becomes the last child. Trees are values here, so the copy is the
      child itself. */
  function AppendChild(e: Element, child: Element): (r: Element)
    ensures r.tag == e.tag && r.attributes == e.attributes
    ensures |r.children| == |e.children| + 1
    ensures r.children[..|e.children|] == e.children
    ensures r.children[|e.children|] == ElementNode(child)
  {
    e.(children := e.children + [ElementNode(child)])
  }

  // ---------------------------------------------------------------------
  // getChildElement (DOMMessage.java:313-322)

  /** The node is an element with the given tag. */
  predicate IsElementTagged(n: Node, tag: string) {
    n.ElementNode? && n.element.tag == tag
  }

  /** Position `i` holds the first element child of `cs` tagged `tag`. */
  ghost predicate IsFirstTagged(cs: seq<Node>, tag: string, i: int) {
    0 <= i < |cs| && IsElementTagged(cs[i], tag)
    && forall j :: 0 <= j < i ==> !IsElementTagged(cs[j], tag)
  }

  /** The scan of getChildElement from position `from` on. */
  function FindTaggedFrom(cs: seq<Node>, tag: string, from: nat): (r: Option<nat>)
    requires from <= |cs|
    decreases |cs| - from
    ensures r.Some? ==> from <= r.value < |cs| && IsElementTagged(cs[r.value], tag)
    ensures r.Some? ==> forall j :: from <= j < r.value ==> !IsElementTagged(cs[j], tag)
    ensures r.None? <==> forall j :: from <= j < |cs| ==> !IsElementTagged(cs[j], tag)
  {
    if from == |cs| then None
    else if IsElementTagged(cs[from], tag) then Some(from)
    else FindTaggedFrom(cs, tag, from + 1)
  }

  /** getChildElement: the first child that is an element with the given
      tag, skipping text nodes; None (null) when no child matches. */
  function GetChildElement(e: Element, tagName: string): (r: Option<Element>)
    ensures r.None? <==> forall i :: 0 <= i < |e.children| ==> !IsElementTagged(e.children[i], tagName)
    ensures r.Some? ==> r.value.tag == tagName
    ensures r.Some? ==> exists i :: IsFirstTagged(e.children, tagName, i) && e.children[i] == ElementNode(r.value)
  {
    match FindTaggedFrom(e.children, tagName, 0)
    case None => None
    case Some(i) =>
      assert IsFirstTagged(e.children, tagName, i);
      Some(e.children[i].element)
  }

  /** Appending a child never changes which child is found first when one
      was already found, and finds the appended child when none was. */
  lemma GetChildElementAfterAppend(e: Element, child: Element, tagName: string)
    ensures GetChildElement(e, tagName).Some? ==>
      GetChildElement(AppendChild(e, child), tagName) == GetChildElement(e, tagName)
    ensures GetChildElement(e, tagName).None? && child.tag == tagName ==>
      GetChildElement(AppendChild(e, child), tagName) == Some(child)
    ensures GetChildElement(e, tagName).None? && child.tag != tagName ==>
      GetChildElement(AppendChild(e, child), tagName).None?
  {
    var r := AppendChild(e, child);
    var n := |e.children|;
    assert forall j :: 0 <= j < n ==> r.children[j] == e.children[j];
    var before := GetChildElement(e, tagName);
    var after := GetChildElement(r, tagName);
    if before.Some? {
      var i :| IsFirstTagged(e.children, tagName, i) && e.children[i] == ElementNode(before.value);
      var k :| IsFirstTagged(r.children, tagName, k) && r.children[k] == ElementNode(after.value);
      assert IsElementTagged(r.children[i], tagName);
      assert k == i;
    } else if child.tag == tagName {
      assert IsElementTagged(r.children[n], tagName);
      var k :| IsFirstTagged(r.children, tagName, k) && r.children[k] == ElementNode(after.value);
      assert k == n;
    } else {
      assert forall j :: 0 <= j < |r.children| ==> !IsElementTagged(r.children[j], tagName) by {
        forall j | 0 <= j < |r.children| ensures !IsElementTagged(r.children[j], tagName) {
          if j < n { assert r.children[j] == e.children[j]; }
        }
      }
    }
  }

  // ---------------------------------------------------------------------
  // Typed attribute getters (DOMMessage.java:410-454). The element argument
  // may be null; the getters never throw.

  /** The element is present and carries the attribute. */
  predicate Carries(e: Option<Element>, key: string) {
    e.Some? && HasAttribute(e.value, key)
  }

  /** getBooleanAttribute: the default only when the element is null or
      lacks the attribute; otherwise whether the text is "true" ignoring case. */
  function GetBooleanAttribute(e: Option<Element>, key: string, defaultValue: bool): (r: bool)
    ensures !Carries(e, key) ==> r == defaultValue
    ensures Carries(e, key) ==> (r <==> EqualsIgnoreCase(e.value.attributes[key], "true"))
  {
    if Carries(e, key) then ParseBoolean(GetAttribute(e.value, key)) else defaultValue
  }

  /** getIntegerAttribute: the parsed value when the element carries the
      attribute and Integer.parseInt accepts it; the default otherwise. */
  function GetIntegerAttribute(e: Option<Element>, key: string, defaultValue: int): (r: int)
    ensures !Carries(e, key) ==> r == defaultValue
    ensures Carries(e, key) && ParseInt(e.value.attributes[key]).None? ==> r == defaultValue
    ensures Carries(e, key) && ParseInt(e.value.attributes[key]).Some? ==>
      r == ParseInt(e.value.attributes[key]).value
    ensures IsInt32(defaultValue) ==> IsInt32(r)
  {
    if Carries(e, key) then
      match ParseInt(GetAttribute(e.value, key))
      case Some(v) => v
      case None => defaultValue
    else defaultValue
  }

  /** getStringAttribute: the attribute's text, or the default when the
      element is null or lacks the attribute. */
  function GetStringAttribute(e: Option<Element>, key: string, defaultValue: string): (r: string)
    ensures !Carries(e, key) ==> r == defaultValue
    ensures Carries(e, key) ==> r == e.value.attributes[key]
  {
    if Carries(e, key) then GetAttribute(e.value, key) else defaultValue
  }

  /** A present boolean attribute that is not "true" reads as false, never
      as the default: "yes" is false even when the default is true. */
  lemma BooleanAttributeIgnoresDefaultWhenPresent(e: Element, key: string)
    requires HasAttribute(e, key) && GetAttribute(e, key) == "yes"
    ensures !GetBooleanAttribute(Some(e), key, true)
  {
  }

  /** Every typed getter reads back what setAttribute stored: the string
      itself, the int Integer.toString wrote, and the boolean Boolean.toString
      wrote. */
  lemma TypedGettersReadBackSet(e: Element, key: string, s: string, n: int, b: bool,
                                sd: string, nd: int, bd: bool)
    requires IsInt32(n)
    ensures GetStringAttribute(Some(SetAttribute(e, key, s)), key, sd) == s
    ensures GetIntegerAttribute(Some(SetAttribute(e, key, IntToString(n))), key, nd) == n
    ensures GetBooleanAttribute(Some(SetAttribute(e, key, if b then "true" else "false")), key, bd) == b
  {
    ParseIntToString(n);
  }

  /** A text that is not a number reads as the default. */
  lemma IntegerAttributeDefaultsOnGarbage(e: Element, key: string, nd: int)
    requires GetAttribute(e, key) == "notanumber"
    ensures GetIntegerAttribute(Some(e), key, nd) == nd
  {
    assert !IsDigit(GetAttribute(e, key)[1]);
  }

  /** A decimal text outside the Java int range reads as the default, in
      either direction: digits worth more than the largest int, or a minus
      sign before digits worth more than the magnitude of the smallest. */
  lemma IntegerAttributeDefaultsOnOverflow(e: Element, key: string, nd: int)
    ensures var t := GetAttribute(e, key);
      0 < |t| && AllDigits(t) && DigitsValue(t) > IntMax ==> GetIntegerAttribute(Some(e), key, nd) == nd
    ensures var t := GetAttribute(e, key);
      1 < |t| && t[0] == '-' && AllDigits(t[1..]) && DigitsValue(t[1..]) > -IntMin ==>
        GetIntegerAttribute(Some(e), key, nd) == nd
  {
  }

  /** One past the largest int, "2147483648", reads as the default. */
  lemma IntegerAttributeDefaultsOnIntMaxPlusOne(e: Element, key: string, nd: int)
    requires GetAttribute(e, key) == "2147483648"
    ensures GetIntegerAttribute(Some(e), key, nd) == nd
  {
    // The value of each prefix of the text, in turn.
    assert AllDigits("2147483648");
    assert DigitsValue("2") == 2 by { assert "2"[..0] == ""; }
    assert DigitsValue("21") == 21 by { assert "21"[..1] == "2"; }
    assert DigitsValue("214") == 214 by { assert "214"[..2] == "21"; }
    assert DigitsValue("2147") == 2147 by { assert "2147"[..3] == "214"; }
    assert DigitsValue("21474") == 21474 by { assert "21474"[..4] == "2147"; }
    assert DigitsValue("214748") == 214748 by { assert "214748"[..5] == "21474"; }
    assert DigitsValue("2147483") == 2147483 by { assert "2147483"[..6] == "214748"; }
    assert DigitsValue("21474836") == 21474836 by { assert "21474836"[..7] == "2147483"; }
    assert DigitsValue("214748364") == 214748364 by { assert "214748364"[..8] == "21474836"; }
    assert DigitsValue("2147483648") == 2147483648 by { assert "2147483648"[..9] == "214748364"; }
    IntegerAttributeDefaultsOnOverflow(e, key, nd);
  }

  // ---------------------------------------------------------------------
  // readId (DOMMessage.java:543-547)

  /** FreeColObject.ID_ATTRIBUTE_TAG, the current identifier key. */
  const IdAttributeTag: string := "id"
  /** FreeColObject.ID_ATTRIBUTE, the legacy identifier key. */
  const IdAttributeLegacy: string := "ID"

  /** Element.getAttribute seen as a Java String reference, so that the null
      test in readId can be stated: the DOM answers "" for an absent key and
      never null. */
  function GetAttributeNullable(e: Element, key: string): (r: Option<string>)
    ensures r.Some?
    ensures !HasAttribute(e, key) ==> r.value == ""
  {
    Some(GetAttribute(e, key))
  }

  /** readId as written: read the current key, and fall back to the legacy
      key only when that read produced null. */
  function ReadIdAsWritten(e: Element): (r: string)
    ensures r == GetAttribute(e, IdAttributeTag)
  {
    var id := GetAttributeNullable(e, IdAttributeTag);
    if id.None? then GetAttribute(e, IdAttributeLegacy) else id.value
  }

  /** The null test in readId can never succeed, so an identifier stored
      only under the legacy key is read as the empty string. */
  lemma ReadIdAsWrittenMissesLegacyKey()
    ensures ReadIdAsWritten(Element("unit", map[IdAttributeLegacy := "unit:7"], [])) == ""
  {
  }

  /** readId as intended: the current key when present, the legacy key
      otherwise. */
  function ReadId(e: Element): (r: string)
    ensures HasAttribute(e, IdAttributeTag) ==> r == e.attributes[IdAttributeTag]
    ensures !HasAttribute(e, IdAttributeTag) && HasAttribute(e, IdAttributeLegacy) ==>
      r == e.attributes[IdAttributeLegacy]
    ensures !HasAttribute(e, IdAttributeTag) && !HasAttribute(e, IdAttributeLegacy) ==> r == ""
  {
    if HasAttribute(e, IdAttributeTag) then GetAttribute(e, IdAttributeTag)
    else GetAttribute(e, IdAttributeLegacy)
  }

  /** The corrected read agrees with the written one whenever the current key
      is present, and recovers the legacy identifier when it is not. */
  lemma ReadIdCorrection(e: Element)
    ensures HasAttribute(e, IdAttributeTag) ==> ReadId(e) == ReadIdAsWritten(e)
    ensures !HasAttribute(e, IdAttributeTag) ==> ReadId(e) == GetAttribute(e, IdAttributeLegacy)
    ensures ReadId(Element("unit", map[IdAttributeLegacy := "unit:7"], [])) == "unit:7"
  {
    var legacyOnly := Element("unit", map[IdAttributeLegacy := "unit:7"], []);
    assert !HasAttribute(legacyOnly, IdAttributeTag);
  }
}

=== FILE: message.dfy ===
/** A DOMMessage: a document whose root element is the message. Covers
    construction from a tag and attribute pairs, the type queries, root
    attribute access, child edits, batch collapsing, the dispatch-name
    derivation of createMessage and the preamble stripping of
    elementToString. */
module DomMessage {
  import opened Wrappers
  import opened Text
  import opened Dom

  /** An org.w3c.dom.Document: it owns at most one root element. */
  datatype Document = Document(root: Option<Element>)

  /** A DOMMessage; its document reference may be null. */
  datatype Message = Message(document: Option<Document>)

  /** INVALID_MESSAGE, the type reported for a message without a root. */
  const InvalidMessage: string := "invalid"

  /** FREECOL_PROTOCOL_VERSION, advertised for compatibility checks. */
  const ProtocolVersion: string := "0.1.6"

  predicate HasRoot(m: Message) {
    m.document.Some? && m.document.value.root.Some?
  }

  /** getElement(), for a message that has a root. */
  function Root(m: Message): Element
    requires HasRoot(m)
  {
    m.document.value.root.value
  }

  /** A message whose document holds the given root. */
  function WithRoot(e: Element): (m: Message)
    ensures HasRoot(m) && Root(m) == e
  {
    Message(Some(Document(Some(e))))
  }

  // ---------------------------------------------------------------------
  // DOMMessage(String tag, String... attributes)   (DOMMessage.java:111-119)

  /** `i` is a key position of the pair list: an even index with a value after it. */
  predicate IsKeyPosition(a: seq<string>, i: int) {
    0 <= i < |a| - 1 && i % 2 == 0
  }

  /** Position `i` holds the last occurrence of key `k` among the pairs. */
  ghost predicate IsLastKeyPosition(a: seq<string>, k: string, i: int) {
    IsKeyPosition(a, i) && a[i] == k
    && forall j :: i < j && IsKeyPosition(a, j) ==> a[j] != k
  }

  /** root.setAttribute(a[i], a[i+1]) for every pair, in order. */
  function SetPairs(m: map<string, string>, a: seq<string>): map<string, string>
    requires |a| % 2 == 0
  {
    if |a| == 0 then m
    else SetPairs(m, a[..|a| - 2])[a[|a| - 2] := a[|a| - 1]]
  }

  /** Setting the pairs into an empty map yields exactly the keys at key
      positions, each bound to the value that follows its LAST occurrence. */
  lemma {:induction false} SetPairsLastWins(a: seq<string>)
    requires |a| % 2 == 0
    ensures forall k :: k in SetPairs(map[], a) <==> exists i :: IsKeyPosition(a, i) && a[i] == k
    ensures forall k, i :: IsLastKeyPosition(a, k, i) ==> SetPairs(map[], a)[k] == a[i + 1]
  {
    if |a| > 0 {
      var p := a[..|a| - 2];
      var key, val := a[|a| - 2], a[|a| - 1];
      SetPairsLastWins(p);
      var m := SetPairs(map[], a);
      assert m == SetPairs(map[], p)[key := val];
      assert forall i :: IsKeyPosition(p, i) ==> IsKeyPosition(a, i) && a[i] == p[i];
      assert forall i :: IsKeyPosition(a, i) && i != |a| - 2 ==> IsKeyPosition(p, i) && a[i] == p[i];
      forall k
        ensures k in m <==> exists i :: IsKeyPosition(a, i) && a[i] == k
      {
        if k == key {
          assert IsKeyPosition(a, |a| - 2);
        } else if k in m {
          var i :| IsKeyPosition(p, i) && p[i] == k;
          assert IsKeyPosition(a, i) && a[i] == k;
        }
      }
      forall k, i | IsLastKeyPosition(a, k, i)
        ensures m[k] == a[i + 1]
      {
        if k == key {
          if i != |a| - 2 {
            assert i < |a| - 2 && IsKeyPosition(a, |a| - 2);
            assert false;
          }
        } else {
          assert i != |a| - 2;
          assert IsLastKeyPosition(p, k, i);
        }
      }
    }
  }

  /** The varargs constructor. The pairs are set in order, so a later
      duplicate key overwrites an earlier one; an odd-length list reads past
      the end of the array on its last pair and throws. */
  function NewMessage(tag: string, attributes: seq<string>): (r: Result<Message>)
    ensures r.Failure? <==> |attributes| % 2 == 1
    ensures r.Failure? ==> r.error == ArrayIndexOutOfBounds
    ensures r.Success? ==> HasRoot(r.value) && Root(r.value).tag == tag && Root(r.value).children == []
    ensures r.Success? ==> forall k ::
      HasAttribute(Root(r.value), k) <==> exists i :: IsKeyPosition(attributes, i) && attributes[i] == k
    ensures r.Success? ==> forall k, i :: IsLastKeyPosition(attributes, k, i) ==>
      GetAttribute(Root(r.value), k) == attributes[i + 1]
  {
    if |attributes| % 2 == 1 then Failure(ArrayIndexOutOfBounds)
    else
      SetPairsLastWins(attributes);
      Success(WithRoot(Element(tag, SetPairs(map[], attributes), [])))
  }

  // ---------------------------------------------------------------------
  // getType / isType   (DOMMessage.java:162-177)

  /** getType: the root's tag, or "invalid" when the document or its root
      is null. IsTypeCharacterization states what it answers. */
  function GetType(m: Message): string
  {
    if HasRoot(m) then Root(m).tag else InvalidMessage
  }

  predicate IsType(m: Message, t: string) {
    GetType(m) == t
  }

  /** isType(t) holds exactly for the root's tag; "invalid" is also the
      answer for a message that lost its root, so the two cannot be told
      apart by type alone. */
  lemma IsTypeCharacterization(m: Message, t: string)
    ensures IsType(m, t) <==> (HasRoot(m) && Root(m).tag == t) || (!HasRoot(m) && t == InvalidMessage)
    ensures IsType(m, InvalidMessage) <==> !HasRoot(m) || Root(m).tag == InvalidMessage
    ensures IsType(Message(None), InvalidMessage) && IsType(Message(Some(Document(None))), InvalidMessage)
  {
  }

  /** The root attributes of a constructed message, read through
      hasAttribute and getAttribute: exactly the keys of the pair list, each
      with the value of its last pair, and "" for any other key. */
  lemma MessageAttributesOfNewMessage(tag: string, attributes: seq<string>, k: string)
    requires |attributes| % 2 == 0
    ensures NewMessage(tag, attributes).Success?
    ensures var m := NewMessage(tag, attributes).value;
      HasRoot(m)
      && (HasMessageAttribute(m, k) <==> exists i :: IsKeyPosition(attributes, i) && attributes[i] == k)
      && (forall i :: IsLastKeyPosition(attributes, k, i) ==> GetMessageAttribute(m, k) == attributes[i + 1])
      && ((forall i :: IsKeyPosition(attributes, i) ==> attributes[i] != k) ==> GetMessageAttribute(m, k) == "")
  {
  }

  /** A constructed message has the type it was built with. */
  lemma NewMessageHasType(tag: string, attributes: seq<string>)
    requires |attributes| % 2 == 0
    ensures NewMessage(tag, attributes).Success?
    ensures IsType(NewMessage(tag, attributes).value, tag)
  {
  }

  // ---------------------------------------------------------------------
  // Root attribute access   (DOMMessage.java:185-217). A message without a
  // root throws NullPointerException here; callers must not do that.

  /** getAttribute(key) on the root: the stored text, or "" when the root
      lacks the key; never null. */
  function GetMessageAttribute(m: Message, key: string): (r: string)
    requires HasRoot(m)
    ensures HasMessageAttribute(m, key) ==> r == Root(m).attributes[key]
    ensures !HasMessageAttribute(m, key) ==> r == ""
  {
    GetAttribute(Root(m), key)
  }

  predicate HasMessageAttribute(m: Message, key: string)
    requires HasRoot(m)
  {
    HasAttribute(Root(m), key)
  }

  /** setAttribute(key, value) on the root. */
  function SetMessageAttribute(m: Message, key: string, value: string): (r: Message)
    requires HasRoot(m)
    ensures HasRoot(r) && GetType(r) == GetType(m) && Root(r).children == Root(m).children
    ensures HasMessageAttribute(r, key) && GetMessageAttribute(r, key) == value
    ensures forall k :: k != key ==>
      (HasMessageAttribute(r, k) <==> HasMessageAttribute(m, k))
      && GetMessageAttribute(r, k) == GetMessageAttribute(m, k)
  {
    WithRoot(SetAttribute(Root(m), key, value))
  }

  /** setAttribute(key, int): the value is stored as Integer.toString. */
  function SetMessageIntAttribute(m: Message, key: string, value: int): (r: Message)
    requires HasRoot(m)
    requires IsInt32(value)
    ensures HasRoot(r) && GetType(r) == GetType(m) && Root(r).children == Root(m).children
    ensures HasMessageAttribute(r, key)
    ensures forall k :: k != key ==>
      (HasMessageAttribute(r, k) <==> HasMessageAttribute(m, k))
      && GetMessageAttribute(r, k) == GetMessageAttribute(m, k)
    ensures GetIntegerAttribute(Some(Root(r)), key, 0) == value
    ensures ParseInt(GetMessageAttribute(r, key)) == Some(value)
  {
    ParseIntToString(value);
    SetMessageAttribute(m, key, IntToString(value))
  }

  // ---------------------------------------------------------------------
  // Child edits   (DOMMessage.java:219-241)

  /** add(Element): a copy of the element becomes the root's new last child. */
  function Add(m: Message, e: Element): (r: Message)
    requires HasRoot(m)
    ensures HasRoot(r)
    ensures Root(r).tag == Root(m).tag && Root(r).attributes == Root(m).attributes
    ensures |Root(r).children| == |Root(m).children| + 1
    ensures Root(r).children[..|Root(m).children|] == Root(m).children
    ensures Root(r).children[|Root(m).children|] == ElementNode(e)
  {
    WithRoot(AppendChild(Root(m), e))
  }

  /** add(DOMMessage): adds the other message's root element. */
  function AddMessage(m: Message, other: Message): (r: Message)
    requires HasRoot(m) && HasRoot(other)
    ensures HasRoot(r) && GetType(r) == GetType(m) && Root(r).attributes == Root(m).attributes
    ensures Root(r).children == Root(m).children + [ElementNode(Root(other))]
  {
    Add(m, Root(other))
  }

  /** clearChildren: every child of the root is removed. */
  function ClearChildren(m: Message): (r: Message)
    requires HasRoot(m)
    ensures HasRoot(r) && Root(r).children == []
    ensures Root(r).tag == Root(m).tag && Root(r).attributes == Root(m).attributes
  {
    WithRoot(Root(m).(children := []))
  }

  /** Clearing and then adding leaves exactly the added elements, in the
      order they were added. */
  lemma ClearThenAdd(m: Message, a: Element, b: Element)
    requires HasRoot(m)
    ensures Root(Add(Add(ClearChildren(m), a), b)).children == [ElementNode(a), ElementNode(b)]
  {
    var c := ClearChildren(m);
    var c1 := Add(c, a);
    assert Root(c1).children == [ElementNode(a)];
  }

  // ---------------------------------------------------------------------
  // collapseElements   (DOMMessage.java:285-302)

  /** The tag reserved for batch envelopes. */
  const MultipleTag: string := "multiple"

  /** The outcome of collapseElements: the envelope (or null), and what is
      left of the caller's list, since the call removes the list's first
      element when it builds an envelope. */
  datatype Collapsed = Collapsed(envelope: Option<Element>, remaining: seq<Element>)

  /** Elements as child nodes, in order. */
  function AsNodes(es: seq<Element>): (ns: seq<Node>)
    ensures |ns| == |es|
    ensures forall i :: 0 <= i < |es| ==> ns[i] == ElementNode(es[i])
  {
    if |es| == 0 then [] else AsNodes(es[..|es| - 1]) + [ElementNode(es[|es| - 1])]
  }

  function CollapseElements(es: seq<Element>): (r: Collapsed)
    ensures r.envelope.None? <==> |es| == 0
    ensures |es| == 1 ==> r.envelope == Some(es[0])
    ensures |es| >= 2 ==> r.envelope.Some? && r.envelope.value.tag == MultipleTag
    ensures |es| >= 2 ==> r.envelope.value.attributes == map[]
    ensures |es| >= 2 ==> |r.envelope.value.children| == |es|
    ensures |es| >= 2 ==> forall i :: 0 <= i < |es| ==> r.envelope.value.children[i] == ElementNode(es[i])
    ensures |es| >= 2 ==> r.remaining == es[1..]
    ensures |es| < 2 ==> r.remaining == es
  {
    if |es| == 0 then Collapsed(None, es)
    else if |es| == 1 then Collapsed(Some(es[0]), es)
    else Collapsed(Some(Element(MultipleTag, map[], AsNodes(es))), es[1..])
  }

  /** The element children of a node list, in order; text nodes skipped. */
  function ElementsOf(ns: seq<Node>): seq<Element>
  {
    if |ns| == 0 then []
    else ElementsOf(ns[..|ns| - 1]) + (if ns[|ns| - 1].ElementNode? then [ns[|ns| - 1].element] else [])
  }

  lemma {:induction false} ElementsOfAsNodes(es: seq<Element>)
    ensures ElementsOf(AsNodes(es)) == es
  {
    if |es| > 0 {
      var ns := AsNodes(es);
      assert ns[..|ns| - 1] == AsNodes(es[..|es| - 1]);
      ElementsOfAsNodes(es[..|es| - 1]);
    }
  }

  /** The receiving side of a batch: an envelope's element children, a
      single message as itself, nothing as nothing. */
  function Expand(envelope: Option<Element>): seq<Element>
  {
    match envelope
    case None => []
    case Some(e) => if e.tag == MultipleTag then ElementsOf(e.children) else [e]
  }

  /** Expanding a collapsed batch gives back the batch in its original order,
      unless it is a single element that is itself tagged "multiple". */
  lemma ExpandCollapse(es: seq<Element>)
    requires |es| == 1 ==> es[0].tag != MultipleTag
    ensures Expand(CollapseElements(es).envelope) == es
  {
    if |es| >= 2 {
      var e := CollapseElements(es).envelope.value;
      assert e.children == AsNodes(es);
      ElementsOfAsNodes(es);
    }
  }

  // ---------------------------------------------------------------------
  // createMessage   (DOMMessage.java:129-146)

  const MessagePackage: string := "net.sf.freecol.common.networking."
  const MessageSuffix: string := "Message"

  /** The class name createMessage instantiates for a tag: the package, the
      tag with its first letter upper-cased, and "Message". An empty tag
      makes substring(0, 1) throw. */
  function HandlerClassName(tag: string): (r: Result<string>)
    ensures r.Failure? <==> |tag| == 0
    ensures r.Failure? ==> r.error == StringIndexOutOfBounds
    ensures r.Success? ==> StartsWith(r.value, MessagePackage) && EndsWith(r.value, MessageSuffix)
    ensures r.Success? ==> |r.value| == |MessagePackage| + |tag| + |MessageSuffix|
    ensures r.Success? ==> r.value[|MessagePackage|] == ToUpperAscii(tag[0])
    ensures r.Success? ==> r.value[|MessagePackage| + 1..|MessagePackage| + |tag|] == tag[1..]
  {
    if |tag| == 0 then Failure(StringIndexOutOfBounds)
    else
      var name := MessagePackage + [ToUpperAscii(tag[0])] + tag[1..] + MessageSuffix;
      assert name[|MessagePackage| + 1..|MessagePackage| + |tag|] == tag[1..];
      Success(name)
  }

  /** Recovers the tag from a handler class name: strip the package and the
      suffix and lower-case the first letter. */
  function TagOfHandlerClassName(name: string): Option<string>
  {
    if StartsWith(name, MessagePackage) && EndsWith(name, MessageSuffix)
       && |name| > |MessagePackage| + |MessageSuffix|
    then
      var core := name[|MessagePackage|..|name| - |MessageSuffix|];
      Some([ToLowerAscii(core[0])] + core[1..])
    else None
  }

  /** Deriving the class name and reading the tag back is the identity for
      every tag whose first character is not an upper-case letter. */
  lemma TagOfHandlerClassNameRoundTrip(tag: string)
    requires |tag| > 0 && !IsUpperAscii(tag[0])
    ensures TagOfHandlerClassName(HandlerClassName(tag).value) == Some(tag)
  {
    var name := HandlerClassName(tag).value;
    var core := name[|MessagePackage|..|name| - |MessageSuffix|];
    assert core == [ToUpperAscii(tag[0])] + tag[1..];
    assert [ToLowerAscii(core[0])] + core[1..] == tag;
  }

  /** Two tags dispatch to the same class exactly when they differ at most in
      the case of their first letter: "move" and "Move" both name MoveMessage. */
  lemma HandlerClassNameCollisions(t1: string, t2: string)
    requires |t1| > 0 && |t2| > 0
    ensures HandlerClassName(t1) == HandlerClassName(t2) <==>
      |t1| == |t2| && ToUpperAscii(t1[0]) == ToUpperAscii(t2[0]) && t1[1..] == t2[1..]
  {
    var n1, n2 := HandlerClassName(t1).value, HandlerClassName(t2).value;
    if n1 == n2 {
      assert n1[|MessagePackage|] == n2[|MessagePackage|];
      assert n1[|MessagePackage| + 1..|MessagePackage| + |t1|] == n2[|MessagePackage| + 1..|MessagePackage| + |t2|];
    }
  }

  /** createMessage: null for a null element; otherwise the instance that
      reflection builds for the derived class name, where `instantiate`
      stands for Introspector.instantiate and None for its failure, which is
      logged and turned into null. No other name is tried. */
  function CreateMessage<M>(element: Option<Element>, instantiate: (string, Element) -> Option<M>): (r: Result<Option<M>>)
    ensures element.None? ==> r == Success(None)
    ensures element.Some? && |element.value.tag| == 0 ==> r == Failure(StringIndexOutOfBounds)
    ensures element.Some? && |element.value.tag| > 0 ==>
      r == Success(instantiate(HandlerClassName(element.value.tag).value, element.value))
  {
    match element
    case None => Success(None)
    case Some(e) =>
      match HandlerClassName(e.tag)
      case Failure(x) => Failure(x)
      case Success(name) => Success(instantiate(name, e))
  }

  /** An unknown tag is dropped, not an error: when no class answers to the
      derived name, createMessage yields null. */
  lemma UnknownTagIsDropped<M>(e: Element, instantiate: (string, Element) -> Option<M>)
    requires |e.tag| > 0
    requires instantiate(HandlerClassName(e.tag).value, e).None?
    ensures CreateMessage(Some(e), instantiate) == Success(None)
  {
  }

  // ---------------------------------------------------------------------
  // elementToString preamble stripping   (DOMMessage.java:518-525)

  const XmlDeclarationStart: string := "<?xml"
  const XmlDeclarationEnd: string := "?>"

  /** Drops a leading XML declaration (section 2.8 of XML 1.0) up to and
      including the first "?>"; any other text is returned unchanged. */
  function StripXmlDeclaration(s: string): (r: string)
    ensures (StartsWith(s, XmlDeclarationStart) && Contains(s, XmlDeclarationEnd)) <==> |r| < |s|
    ensures |r| == |s| ==> r == s
    ensures |r| < |s| ==> r == s[|s| - |r|..]
    ensures |r| < |s| ==> var k := |s| - |r| - |XmlDeclarationEnd|;
      OccursAt(s, XmlDeclarationEnd, k) && forall i :: 0 <= i < k ==> !OccursAt(s, XmlDeclarationEnd, i)
  {
    if StartsWith(s, XmlDeclarationStart) then
      var index := IndexOf(s, XmlDeclarationEnd);
      assert s[0] == XmlDeclarationStart[0];
      if index > 0 then s[index + |XmlDeclarationEnd|..] else s
    else s
  }

  /** In a declaration followed by a body, no "?>" starts before the one
      that closes the declaration, provided the content has none. */
  lemma NoEarlierDeclarationEnd(content: string, body: string, i: int)
    requires !Contains(content, XmlDeclarationEnd)
    requires 0 <= i < |XmlDeclarationStart| + |content|
    ensures !OccursAt(XmlDeclarationStart + content + XmlDeclarationEnd + body, XmlDeclarationEnd, i)
  {
    var s := XmlDeclarationStart + content + XmlDeclarationEnd + body;
    var n := |XmlDeclarationStart|;
    var k := n + |content|;
    var w := s[i..i + 2];
    assert w[0] == s[i] && w[1] == s[i + 1];
    if i < n {
      assert s[i] == XmlDeclarationStart[i];
      if i + 1 < n {
        assert s[i + 1] == XmlDeclarationStart[i + 1];
      }
      assert w[0] != '?' || w[1] != '>';
    } else if i + 1 < k {
      var j := i - n;
      assert w == content[j..j + 2];
      assert !OccursAt(content, XmlDeclarationEnd, j);
    } else {
      assert s[i + 1] == '?';
    }
  }

  /** Stripping the declaration from a declaration followed by a body gives
      back the body, whatever the body holds, provided the declaration's
      content has no "?>" of its own. */
  lemma StripXmlDeclarationRoundTrip(content: string, body: string)
    requires !Contains(content, XmlDeclarationEnd)
    ensures StripXmlDeclaration(XmlDeclarationStart + content + XmlDeclarationEnd + body) == body
  {
    var s := XmlDeclarationStart + content + XmlDeclarationEnd + body;
    var k := |XmlDeclarationStart| + |content|;
    assert s[..|XmlDeclarationStart|] == XmlDeclarationStart;
    assert s[k..k + 2] == XmlDeclarationEnd;
    assert OccursAt(s, XmlDeclarationEnd, k);
    forall i | 0 <= i < k
      ensures !OccursAt(s, XmlDeclarationEnd, i)
    {
      NoEarlierDeclarationEnd(content, body, i);
    }
    assert IndexOf(s, XmlDeclarationEnd) == k;
    assert s[k + 2..] == body;
  }
}

=== FILE: scope.dfy ===
/** The scope gate of DOMMessage's object writers: the write scope that says
    whose view of the game an outbound element may show, the validity check
    of toXMLElement(fco, document, WriteScope), and the overloads that derive
    a scope themselves. */
module ScopedWrite {
  import opened Wrappers
  import opened Dom
  import opened DomMessage

  /** FreeColXMLWriter.WriteScopeType. */
  datatype ScopeKind = Server | Save | Client

  type PlayerId = string

  /** FreeColXMLWriter.WriteScope: a kind and, for a client scope, the
      player whose view applies. */
  datatype WriteScope = WriteScope(kind: ScopeKind, player: Option<PlayerId>)

  /** WriteScope.toServer(). */
  const ToServer: WriteScope := WriteScope(Server, None)

  /** WriteScope.toClient(player). */
  function ToClient(p: PlayerId): WriteScope {
    WriteScope(Client, Some(p))
  }

  /** WriteScope.isValid: a client scope carries a player and no other
      scope does. FreeColXMLWriter is not part of this model; this is the
      rule its isValid applies. */
  predicate IsValid(s: WriteScope) {
    s.player.None? <==> s.kind != Client
  }

  /** What the private toXMLElement produces for an object: fco.toXML (when
      no fields are given) or fco.toXMLPartial (when they are) under the
      scope, re-parsed into an element of the destination document. None is
      the null returned when the XML writer cannot be created. The object's
      own field writers are not part of this model, so the whole is a
      parameter. */
  type ObjectWriter = (WriteScope, Option<seq<string>>) -> Option<Element>

  /** toXMLElement(fco, document, WriteScope): an invalid scope throws
      IllegalStateException before the object is asked to write anything,
      so what the object would have written never reaches the result. A
      valid scope gets a full write under exactly that scope. */
  function ToXmlElementChecked(fco: ObjectWriter, scope: WriteScope): (r: Result<Option<Element>>)
    ensures !IsValid(scope) <==> r.Failure?
    ensures !IsValid(scope) ==> r.error == IllegalState
    ensures IsValid(scope) ==> r.value == fco(scope, None)
  {
    if !IsValid(scope) then Failure(IllegalState) else Success(fco(scope, None))
  }

  /** The scope the Player overload derives: toServer for a null player,
      toClient(player) otherwise. */
  function ScopeFor(player: Option<PlayerId>): (s: WriteScope)
    ensures IsValid(s)
    ensures player.None? ==> s.kind == Server
    ensures player.Some? ==> s.kind == Client && s.player == player
  {
    match player
    case None => ToServer
    case Some(p) => ToClient(p)
  }

  /** toXMLElement(fco, document, Player): a full write under the derived
      scope, handed straight to the private writer without the check. */
  function ToXmlElementForPlayer(fco: ObjectWriter, player: Option<PlayerId>): Option<Element>
  {
    fco(ScopeFor(player), None)
  }

  /** toXMLElementPartial(fco, document, fields): a partial write of the
      named fields under the server scope, also without the check. */
  function ToXmlElementPartial(fco: ObjectWriter, fields: seq<string>): Option<Element>
  {
    fco(ToServer, Some(fields))
  }

  /** The Player overload skips the check but never needs it: the scope it
      derives is always valid, so the checked writer would produce the same
      element. */
  lemma UncheckedPathsUseValidScopes(fco: ObjectWriter, player: Option<PlayerId>)
    ensures ToXmlElementChecked(fco, ScopeFor(player)) == Success(ToXmlElementForPlayer(fco, player))
  {
  }

  /** The partial write also skips the check without needing it: it writes
      under the scope the Player overload derives for a null player, which
      the check accepts, whatever fields are requested. */
  lemma PartialWriteUsesServerScope(fco: ObjectWriter, fields: seq<string>)
    ensures ToXmlElementPartial(fco, fields) == fco(ScopeFor(None), Some(fields))
    ensures ToXmlElementChecked(fco, ScopeFor(None)).Success?
  {
  }

  /** add(fco) and add(fco, player): the object written for the player (the
      server when null) becomes the root's last child. A null element from
      the writer makes the DOM import throw NullPointerException. */
  function AddObject(m: Message, fco: ObjectWriter, player: Option<PlayerId>): (r: Result<Message>)
    requires HasRoot(m)
    ensures r.Failure? <==> fco(ScopeFor(player), None).None?
    ensures r.Failure? ==> r.error == NullPointer
    ensures r.Success? ==> HasRoot(r.value) && GetType(r.value) == GetType(m)
    ensures r.Success? ==> Root(r.value).attributes == Root(m).attributes
    ensures r.Success? ==> Root(r.value).children == Root(m).children + [ElementNode(fco(ScopeFor(player), None).value)]
  {
    match ToXmlElementForPlayer(fco, player)
    case None => Failure(NullPointer)
    case Some(e) => Success(Add(m, e))
  }
}

=== FILE: settlement.dfy ===
/** The goods side of a native settlement's new turn (csNewTurn and
    consumeGoods of ServerIndianSettlement): production, consumption, ad hoc
    manufacturing, the birth of a new resident, horse breeding and the final
    warehouse cap, on a map from goods type to stored count. */
module IndianSettlementTurn {
  import opened Wrappers

  type GoodsId = string
  type UnitTypeId = string

  /** The goods container's counts; a type that is not stored counts 0. */
  type Goods = map<GoodsId, int>

  /** MAX_HORSES_PER_TURN. */
  const MaxHorsesPerTurn: int := 2

  function Count(m: Goods, g: GoodsId): int {
    if g in m then m[g] else 0
  }

  function Min(a: int, b: int): int { if a <= b then a else b }
  function Max(a: int, b: int): int { if a >= b then a else b }

  /** addGoods: the count of one type moves by `n`; nothing else changes. */
  function AddGoods(m: Goods, g: GoodsId, n: int): (r: Goods)
    ensures Count(r, g) == Count(m, g) + n
    ensures forall h :: h != g ==> Count(r, h) == Count(m, h)
  {
    m[g := Count(m, g) + n]
  }

  /** removeGoods. */
  function RemoveGoods(m: Goods, g: GoodsId, n: int): (r: Goods)
    ensures Count(r, g) == Count(m, g) - n
    ensures forall h :: h != g ==> Count(r, h) == Count(m, h)
  {
    AddGoods(m, g, -n)
  }

  /** What the specification says about one goods type. */
  datatype GoodsKind = GoodsKind(
    storedAs: GoodsId,                  // getStoredAs()
    isRawMaterial: bool,                // isRawMaterial()
    producedMaterial: Option<GoodsId>,  // getProducedMaterial(), may be null
    isStorable: bool,                   // isStorable()
    breedingNumber: int)                // getBreedingNumber()

  /** Everything the turn reads but does not compute: the specification, the
      settlement's production, consumption and wanted amounts, its unit
      count, its size limits, the two colony constants, and the container's
      removeAbove and the settlement's updateWantedGoods. */
  datatype TurnInputs = TurnInputs(
    goodsList: seq<GoodsId>,             // spec.getGoodsTypeList()
    kind: GoodsId -> GoodsKind,
    production: GoodsId -> int,          // getProductionOf
    consumption: GoodsId -> int,         // getConsumptionOf
    wanted: GoodsId -> int,              // getWantedGoodsAmount
    unitCount: nat,                      // getUnitCount()
    foodType: GoodsId,                   // spec.getPrimaryFoodType()
    rumType: GoodsId,                    // "model.goods.rum"
    horsesType: GoodsId,                 // "model.goods.horses"
    grainType: GoodsId,                  // "model.goods.grain"
    bornTypes: seq<UnitTypeId>,          // unit types with bornInIndianSettlement
    maximumSize: int,                    // getType().getMaximumSize()
    foodConsumption: int,                // getFoodConsumption()
    warehouseCapacity: int,              // getWarehouseCapacity()
    foodPerColonist: nat,                // FOOD_PER_COLONIST
    keepRawMaterial: nat,                // KEEP_RAW_MATERIAL
    removeAbove: (Goods, int) -> Goods,  // GoodsContainer.removeAbove
    updateWantedGoods: (Goods, seq<UnitTypeId>) -> seq<GoodsId>)

  /** The part of a settlement the turn changes. */
  datatype Settlement = Settlement(goods: Goods, ownedUnits: seq<UnitTypeId>, wantedGoods: seq<GoodsId>)

  // ---------------------------------------------------------------------
  // consumeGoods   (ServerIndianSettlement.java:180-185)

  /** consumeGoods: nothing happens to a type whose count is not positive;
      otherwise at most the whole stock is removed, so the count drops by
      the amount but never below zero. Other types are untouched. */
  function ConsumeGoods(m: Goods, g: GoodsId, amount: int): (r: Goods)
    ensures Count(m, g) <= 0 ==> r == m
    ensures Count(m, g) > 0 ==> Count(r, g) == Max(Count(m, g) - amount, 0)
    ensures forall h :: h != g ==> Count(r, h) == Count(m, h)
  {
    if Count(m, g) > 0 then RemoveGoods(m, g, Min(amount, Count(m, g))) else m
  }

  // ---------------------------------------------------------------------
  // Production   (ServerIndianSettlement.java:102-105)

  /** addGoods(g.getStoredAs(), getProductionOf(g)) for every goods type in order. */
  function ProducePhase(env: TurnInputs, gs: seq<GoodsId>, m: Goods): Goods
  {
    if |gs| == 0 then m
    else ProducePhase(env, gs[1..], AddGoods(m, env.kind(gs[0]).storedAs, env.production(gs[0])))
  }

  /** The production credited to `h`: that of every listed type stored as `h`. */
  function ProducedFor(env: TurnInputs, gs: seq<GoodsId>, h: GoodsId): int
  {
    if |gs| == 0 then 0
    else (if env.kind(gs[0]).storedAs == h then env.production(gs[0]) else 0) + ProducedFor(env, gs[1..], h)
  }

  /** Each type ends the production phase with its stock plus everything
      produced as it. */
  lemma {:induction false} ProducePhaseCredits(env: TurnInputs, gs: seq<GoodsId>, m: Goods, h: GoodsId)
    ensures Count(ProducePhase(env, gs, m), h) == Count(m, h) + ProducedFor(env, gs, h)
  {
    if |gs| > 0 {
      ProducePhaseCredits(env, gs[1..], AddGoods(m, env.kind(gs[0]).storedAs, env.production(gs[0])), h);
    }
  }

  // ---------------------------------------------------------------------
  // Consumption   (ServerIndianSettlement.java:110-112)

  function ConsumePhase(env: TurnInputs, gs: seq<GoodsId>, m: Goods): Goods
  {
    if |gs| == 0 then m
    else ConsumePhase(env, gs[1..], ConsumeGoods(m, gs[0], env.consumption(gs[0])))
  }

  /** The consumption phase leaves a non-positive count alone and, for a
      type whose own consumption is non-negative, keeps a positive count
      between zero and where it started, whatever the other types consume. */
  lemma {:induction false} ConsumePhaseClamps(env: TurnInputs, gs: seq<GoodsId>, m: Goods, h: GoodsId)
    ensures Count(m, h) <= 0 ==> Count(ConsumePhase(env, gs, m), h) == Count(m, h)
    ensures env.consumption(h) >= 0 && Count(m, h) > 0 ==>
      0 <= Count(ConsumePhase(env, gs, m), h) <= Count(m, h)
  {
    if |gs| > 0 {
      ConsumePhaseClamps(env, gs[1..], ConsumeGoods(m, gs[0], env.consumption(gs[0])), h);
    }
  }

  /** With each type listed once, every listed type with a positive stock
      ends the phase at its stock less its consumption, floored at zero; all
      other counts are unchanged. */
  lemma {:induction false} ConsumePhaseExact(env: TurnInputs, gs: seq<GoodsId>, m: Goods, h: GoodsId)
    requires forall i, j :: 0 <= i < j < |gs| ==> gs[i] != gs[j]
    ensures Count(ConsumePhase(env, gs, m), h) ==
      if h in gs && Count(m, h) > 0 then Max(Count(m, h) - env.consumption(h), 0) else Count(m, h)
  {
    if |gs| > 0 {
      var m' := ConsumeGoods(m, gs[0], env.consumption(gs[0]));
      assert forall i, j :: 0 <= i < j < |gs[1..]| ==> gs[1..][i] != gs[1..][j] by {
        forall i, j | 0 <= i < j < |gs[1..]| ensures gs[1..][i] != gs[1..][j] {
          assert gs[1..][i] == gs[i + 1] && gs[1..][j] == gs[j + 1];
        }
      }
      ConsumePhaseExact(env, gs[1..], m', h);
      if h == gs[0] {
        assert h !in gs[1..] by {
          forall i | 0 <= i < |gs[1..]| ensures gs[1..][i] != h {
            assert gs[1..][i] == gs[i + 1];
          }
        }
      } else {
        assert h in gs <==> h in gs[1..] by {
          if h in gs {
            var i :| 0 <= i < |gs| && gs[i] == h;
            assert gs[1..][i - 1] == h;
          }
        }
      }
    }
  }

  // ---------------------------------------------------------------------
  // Manufacturing   (ServerIndianSettlement.java:115-130)

  /** The guard of the manufacturing step for raw material `g`. */
  predicate ManufactureApplies(env: TurnInputs, m: Goods, g: GoodsId) {
    var k := env.kind(g);
    k.isRawMaterial && k.producedMaterial.Some?
    && env.kind(k.producedMaterial.value).isStorable
    && Count(m, g) > env.wanted(g)
    && Count(m, k.producedMaterial.value) < env.wanted(k.producedMaterial.value)
  }

  /** A third of the settlement's units each turn one unit of surplus raw
      material into one unit of its wanted product. */
  function ManufactureStep(env: TurnInputs, m: Goods, g: GoodsId): (r: Goods)
    ensures !ManufactureApplies(env, m, g) || env.unitCount / 3 == 0 ==> r == m
    ensures ManufactureApplies(env, m, g) && env.unitCount / 3 > 0 ==>
      var p := env.kind(g).producedMaterial.value;
      && p != g
      && Count(r, g) == Count(m, g) - env.unitCount / 3
      && Count(r, p) == Count(m, p) + env.unitCount / 3
      && Count(r, g) + Count(r, p) == Count(m, g) + Count(m, p)
      && forall h :: h != g && h != p ==> Count(r, h) == Count(m, h)
  {
    if ManufactureApplies(env, m, g) then
      var produced := env.kind(g).producedMaterial.value;
      var production := env.unitCount / 3;
      if production > 0 then AddGoods(RemoveGoods(m, g, production), produced, production) else m
    else m
  }

  function ManufacturePhase(env: TurnInputs, gs: seq<GoodsId>, m: Goods): Goods
  {
    if |gs| == 0 then m
    else ManufacturePhase(env, gs[1..], ManufactureStep(env, m, gs[0]))
  }

  /** A settlement with fewer than three units manufactures nothing. */
  lemma {:induction false} ManufactureNeedsThreeUnits(env: TurnInputs, gs: seq<GoodsId>, m: Goods)
    ensures env.unitCount < 3 ==> ManufacturePhase(env, gs, m) == m
  {
    if |gs| > 0 {
      ManufactureNeedsThreeUnits(env, gs[1..], ManufactureStep(env, m, gs[0]));
    }
  }

  /** Manufacturing only moves goods from raw material to product: a type
      that is neither a raw material with a product nor the product of a
      listed type keeps its count, whether or not it is listed itself. */
  lemma {:induction false} ManufactureOnlyMovesGoods(env: TurnInputs, gs: seq<GoodsId>, m: Goods, h: GoodsId)
    requires !(env.kind(h).isRawMaterial && env.kind(h).producedMaterial.Some?)
    requires forall g :: g in gs && env.kind(g).producedMaterial.Some? ==> env.kind(g).producedMaterial.value != h
    ensures Count(ManufacturePhase(env, gs, m), h) == Count(m, h)
  {
    if |gs| > 0 {
      ManufactureOnlyMovesGoods(env, gs[1..], ManufactureStep(env, m, gs[0]), h);
    }
  }

  // ---------------------------------------------------------------------
  // Birth   (ServerIndianSettlement.java:134-155)

  /** The three conditions for a new resident. */
  predicate BirthApplies(env: TurnInputs, m: Goods, owned: seq<UnitTypeId>) {
    |env.bornTypes| > 0
    && Count(m, env.foodType) + 4 * Count(m, env.rumType) > env.foodPerColonist + env.keepRawMaterial
    && |owned| <= env.maximumSize
  }

  /** Goods and owned units after the birth check. */
  datatype BirthOutcome = BirthOutcome(goods: Goods, ownedUnits: seq<UnitTypeId>)

  /** At most one resident is born. `roll` is the index Random.nextInt picks
      among the born types. A birth eats a colonist's worth of food and a
      quarter of that in rum, each clamped as consumeGoods clamps. */
  function BirthStep(env: TurnInputs, m: Goods, owned: seq<UnitTypeId>, roll: nat): (r: BirthOutcome)
    requires |env.bornTypes| > 0 ==> roll < |env.bornTypes|
    ensures !BirthApplies(env, m, owned) ==> r == BirthOutcome(m, owned)
    ensures BirthApplies(env, m, owned) ==> r.ownedUnits == owned + [env.bornTypes[roll]]
    ensures BirthApplies(env, m, owned) && env.foodType != env.rumType ==>
      && (Count(m, env.foodType) > 0 ==>
            Count(r.goods, env.foodType) == Max(Count(m, env.foodType) - env.foodPerColonist, 0))
      && (Count(m, env.rumType) > 0 ==>
            Count(r.goods, env.rumType) == Max(Count(m, env.rumType) - env.foodPerColonist / 4, 0))
    ensures Count(m, env.foodType) <= 0 ==> Count(r.goods, env.foodType) == Count(m, env.foodType)
    ensures Count(m, env.rumType) <= 0 ==> Count(r.goods, env.rumType) == Count(m, env.rumType)
    ensures forall h :: h != env.foodType && h != env.rumType ==> Count(r.goods, h) == Count(m, h)
  {
    if BirthApplies(env, m, owned) then
      var unitType := env.bornTypes[roll];
      var afterFood := ConsumeGoods(m, env.foodType, env.foodPerColonist);
      var afterRum := ConsumeGoods(afterFood, env.rumType, env.foodPerColonist / 4);
      BirthOutcome(afterRum, owned + [unitType])
    else BirthOutcome(m, owned)
  }

  // ---------------------------------------------------------------------
  // Horse breeding   (ServerIndianSettlement.java:159-168)

  /** Grain production left after feeding the settlement. */
  function FoodProductionAvailable(env: TurnInputs): int {
    env.production(env.grainType) - env.foodConsumption
  }

  predicate BreedingApplies(env: TurnInputs, m: Goods) {
    Count(m, env.horsesType) >= env.kind(env.horsesType).breedingNumber
    && FoodProductionAvailable(env) > 0
  }

  /** Horses breed only from a breeding stock and a food surplus, and never
      by more than MAX_HORSES_PER_TURN, so by one or two. */
  function BreedStep(env: TurnInputs, m: Goods): (r: Goods)
    ensures var increase := Count(r, env.horsesType) - Count(m, env.horsesType);
      && 0 <= increase <= MaxHorsesPerTurn
      && (increase > 0 <==> BreedingApplies(env, m))
      && (increase > 0 ==> increase == Min(MaxHorsesPerTurn, FoodProductionAvailable(env)))
    ensures forall h :: h != env.horsesType ==> Count(r, h) == Count(m, h)
  {
    if BreedingApplies(env, m) then
      var nHorses := Min(MaxHorsesPerTurn, FoodProductionAvailable(env));
      AddGoods(m, env.horsesType, nHorses)
    else m
  }

  // ---------------------------------------------------------------------
  // The whole turn   (ServerIndianSettlement.java:96-172)

  /** The goods after each phase, in the order csNewTurn runs them. */
  datatype TurnStages = TurnStages(
    afterProduction: Goods,
    afterConsumption: Goods,
    afterManufacturing: Goods,
    afterBirth: BirthOutcome,
    afterBreeding: Goods,
    afterCap: Goods)

  function RunStages(env: TurnInputs, s: Settlement, roll: nat): (t: TurnStages)
    requires |env.bornTypes| > 0 ==> roll < |env.bornTypes|
    ensures forall h :: Count(t.afterProduction, h) == Count(s.goods, h) + ProducedFor(env, env.goodsList, h)
    ensures forall h :: Count(t.afterProduction, h) <= 0 ==> Count(t.afterConsumption, h) == Count(t.afterProduction, h)
    ensures forall h :: env.consumption(h) >= 0 && Count(t.afterProduction, h) > 0 ==>
      0 <= Count(t.afterConsumption, h) <= Count(t.afterProduction, h)
    ensures env.unitCount < 3 ==> t.afterManufacturing == t.afterConsumption
    ensures BirthApplies(env, t.afterManufacturing, s.ownedUnits) ==>
      t.afterBirth.ownedUnits == s.ownedUnits + [env.bornTypes[roll]]
    ensures !BirthApplies(env, t.afterManufacturing, s.ownedUnits) ==>
      t.afterBirth == BirthOutcome(t.afterManufacturing, s.ownedUnits)
    ensures forall h :: h != env.foodType && h != env.rumType ==>
      Count(t.afterBirth.goods, h) == Count(t.afterManufacturing, h)
    ensures BirthApplies(env, t.afterManufacturing, s.ownedUnits) && env.foodType != env.rumType ==>
      && (Count(t.afterManufacturing, env.foodType) > 0 ==>
            Count(t.afterBirth.goods, env.foodType) ==
              Max(Count(t.afterManufacturing, env.foodType) - env.foodPerColonist, 0))
      && (Count(t.afterManufacturing, env.rumType) > 0 ==>
            Count(t.afterBirth.goods, env.rumType) ==
              Max(Count(t.afterManufacturing, env.rumType) - env.foodPerColonist / 4, 0))
    ensures Count(t.afterManufacturing, env.foodType) <= 0 ==>
      Count(t.afterBirth.goods, env.foodType) == Count(t.afterManufacturing, env.foodType)
    ensures Count(t.afterManufacturing, env.rumType) <= 0 ==>
      Count(t.afterBirth.goods, env.rumType) == Count(t.afterManufacturing, env.rumType)
    ensures Count(t.afterBreeding, env.horsesType) - Count(t.afterBirth.goods, env.horsesType) ==
      if BreedingApplies(env, t.afterBirth.goods) then Min(MaxHorsesPerTurn, FoodProductionAvailable(env)) else 0
    ensures 0 <= Count(t.afterBreeding, env.horsesType) - Count(t.afterBirth.goods, env.horsesType) <= MaxHorsesPerTurn
    ensures forall h :: h != env.horsesType ==> Count(t.afterBreeding, h) == Count(t.afterBirth.goods, h)
    ensures t.afterCap == env.removeAbove(t.afterBreeding, env.warehouseCapacity)
  {
    var produced := ProducePhase(env, env.goodsList, s.goods);
    var consumed := ConsumePhase(env, env.goodsList, produced);
    var manufactured := ManufacturePhase(env, env.goodsList, consumed);
    var born := BirthStep(env, manufactured, s.ownedUnits, roll);
    var bred := BreedStep(env, born.goods);
    var capped := env.removeAbove(bred, env.warehouseCapacity);
    assert forall h :: Count(produced, h) == Count(s.goods, h) + ProducedFor(env, env.goodsList, h) by {
      forall h ensures Count(produced, h) == Count(s.goods, h) + ProducedFor(env, env.goodsList, h) {
        ProducePhaseCredits(env, env.goodsList, s.goods, h);
      }
    }
    assert forall h :: ((Count(produced, h) <= 0 ==> Count(consumed, h) == Count(produced, h))
      && (env.consumption(h) >= 0 && Count(produced, h) > 0 ==> 0 <= Count(consumed, h) <= Count(produced, h))) by {
      forall h ensures (Count(produced, h) <= 0 ==> Count(consumed, h) == Count(produced, h))
        && (env.consumption(h) >= 0 && Count(produced, h) > 0 ==> 0 <= Count(consumed, h) <= Count(produced, h))
      {
        ConsumePhaseClamps(env, env.goodsList, produced, h);
      }
    }
    ManufactureNeedsThreeUnits(env, env.goodsList, consumed);
    TurnStages(produced, consumed, manufactured, born, bred, capped)
  }

  /** csNewTurn, goods side: the settlement after all phases, with its wanted
      goods recomputed from the capped stock. */
  function NewTurn(env: TurnInputs, s: Settlement, roll: nat): (r: Settlement)
    requires |env.bornTypes| > 0 ==> roll < |env.bornTypes|
    ensures |s.ownedUnits| <= |r.ownedUnits| <= |s.ownedUnits| + 1
    ensures |r.ownedUnits| == |s.ownedUnits| + 1 <==>
      BirthApplies(env, RunStages(env, s, roll).afterManufacturing, s.ownedUnits)
    ensures |r.ownedUnits| == |s.ownedUnits| + 1 ==> r.ownedUnits == s.ownedUnits + [env.bornTypes[roll]]
    ensures r.ownedUnits[..|s.ownedUnits|] == s.ownedUnits
    ensures |r.ownedUnits| > |s.ownedUnits| ==> r.ownedUnits[|s.ownedUnits|] in env.bornTypes
    ensures |r.ownedUnits| > |s.ownedUnits| ==> |s.ownedUnits| <= env.maximumSize
    ensures r.goods == env.removeAbove(RunStages(env, s, roll).afterBreeding, env.warehouseCapacity)
    ensures r.wantedGoods == env.updateWantedGoods(r.goods, r.ownedUnits)
  {
    var t := RunStages(env, s, roll);
    Settlement(t.afterCap, t.afterBirth.ownedUnits, env.updateWantedGoods(t.afterCap, t.afterBirth.ownedUnits))
  }
}

=== FILE: text.dfy ===
/** String primitives of java.lang that the message layer relies on:
    prefix tests, String.indexOf, ASCII case mapping, Integer.parseInt,
    Integer.toString and Boolean.parseBoolean. */
module Text {
  import opened Wrappers

  predicate StartsWith(s: string, prefix: string) {
    |prefix| <= |s| && s[..|prefix|] == prefix
  }

  predicate EndsWith(s: string, suffix: string) {
    |suffix| <= |s| && s[|s| - |suffix|..] == suffix
  }

  /** The pattern `pat` occurs in `s` starting at position `i`. */
  predicate OccursAt(s: string, pat: string, i: int) {
    0 <= i && i + |pat| <= |s| && s[i..i + |pat|] == pat
  }

  predicate Contains(s: string, pat: string) {
    exists i :: 0 <= i <= |s| && OccursAt(s, pat, i)
  }

  /** String.indexOf(pat, from): the first position at or after `from`
      where `pat` occurs, or -1 when there is none. */
  function IndexOfFrom(s: string, pat: string, from: nat): (r: int)
    decreases |s| - from
    ensures r == -1 || (from <= r && OccursAt(s, pat, r))
    ensures r != -1 ==> forall i :: from <= i < r ==> !OccursAt(s, pat, i)
    ensures r == -1 <==> forall i :: from <= i ==> !OccursAt(s, pat, i)
  {
    if from + |pat| > |s| then -1
    else if s[from..from + |pat|] == pat then from
    else IndexOfFrom(s, pat, from + 1)
  }

  /** String.indexOf(pat). */
  function IndexOf(s: string, pat: string): (r: int)
    ensures r == -1 <==> !Contains(s, pat)
    ensures r != -1 ==> OccursAt(s, pat, r) && forall i :: 0 <= i < r ==> !OccursAt(s, pat, i)
  {
    IndexOfFrom(s, pat, 0)
  }

  // ---------------------------------------------------------------------
  // ASCII case mapping. Character.toUpperCase/toLowerCase also map letters
  // outside ASCII; those mappings are not modelled.

  predicate IsUpperAscii(c: char) { 'A' <= c <= 'Z' }
  predicate IsLowerAscii(c: char) { 'a' <= c <= 'z' }

  function ToUpperAscii(c: char): char {
    if IsLowerAscii(c) then (c as int - 'a' as int + 'A' as int) as char else c
  }

  function ToLowerAscii(c: char): char {
    if IsUpperAscii(c) then (c as int - 'A' as int + 'a' as int) as char else c
  }

  /** String.equalsIgnoreCase, for ASCII letters. */
  predicate EqualsIgnoreCase(a: string, b: string) {
    |a| == |b| && forall i :: 0 <= i < |a| ==> ToLowerAscii(a[i]) == ToLowerAscii(b[i])
  }

  /** Boolean.parseBoolean: true exactly when the text is "true" ignoring
      case; every other text, the empty one included, is false. It never
      throws. */
  function ParseBoolean(s: string): (r: bool)
    ensures r <==> |s| == 4 && s[0] in "tT" && s[1] in "rR" && s[2] in "uU" && s[3] in "eE"
  {
    EqualsIgnoreCase(s, "true")
  }

  // ---------------------------------------------------------------------
  // Java int and its decimal form.

  const IntMin: int := -0x8000_0000
  const IntMax: int := 0x7fff_ffff

  predicate IsInt32(n: int) { IntMin <= n <= IntMax }

  predicate IsDigit(c: char) { '0' <= c <= '9' }

  predicate AllDigits(s: string) {
    forall i :: 0 <= i < |s| ==> IsDigit(s[i])
  }

  function DigitValue(c: char): nat
    requires IsDigit(c)
  {
    c as int - '0' as int
  }

  function DigitChar(d: nat): (c: char)
    requires d < 10
    ensures IsDigit(c) && DigitValue(c) == d
  {
    ('0' as int + d) as char
  }

  /** The value of a string of decimal digits, most significant first. */
  function DigitsValue(ds: string): nat
    requires AllDigits(ds)
  {
    if |ds| == 0 then 0 else DigitsValue(ds[..|ds| - 1]) * 10 + DigitValue(ds[|ds| - 1])
  }

  /** Integer.parseInt(s) with radix 10: an optional '+' or '-' followed by
      one or more decimal digits whose value fits a Java int. None stands
      for the NumberFormatException thrown on every other text. Only ASCII
      digits are modelled. */
  function ParseInt(s: string): (r: Option<int>)
    ensures r.Some? <==>
      && 0 < |s|
      && var digits := if s[0] == '-' || s[0] == '+' then s[1..] else s;
         && 0 < |digits| && AllDigits(digits)
         && IsInt32(if s[0] == '-' then 0 - DigitsValue(digits) else DigitsValue(digits))
    ensures r.Some? ==> IsInt32(r.value)
    ensures r.Some? ==>
      r.value == (if s[0] == '-' then 0 - DigitsValue(s[1..])
                  else if s[0] == '+' then DigitsValue(s[1..])
                  else DigitsValue(s))
  {
    if |s| == 0 then None
    else
      var digits := if s[0] == '-' || s[0] == '+' then s[1..] else s;
      if |digits| == 0 || !AllDigits(digits) then None
      else
        var v: int := if s[0] == '-' then 0 - DigitsValue(digits) as int else DigitsValue(digits);
        if IsInt32(v) then Some(v) else None
  }

  /** The decimal form of a natural number without leading zeros. */
  function NatToString(n: nat): string
  {
    if n < 10 then [DigitChar(n)] else NatToString(n / 10) + [DigitChar(n % 10)]
  }

  /** Integer.toString(n). */
  function IntToString(n: int): string
  {
    if n < 0 then "-" + NatToString(-n) else NatToString(n)
  }

  lemma {:induction false} NatToStringDigits(n: nat)
    ensures |NatToString(n)| > 0
    ensures AllDigits(NatToString(n))
    ensures DigitsValue(NatToString(n)) == n
  {
    if n >= 10 {
      NatToStringDigits(n / 10);
      var s := NatToString(n);
      assert s[..|s| - 1] == NatToString(n / 10);
    }
  }

  /** Integer.parseInt reads back every value Integer.toString writes. */
  lemma ParseIntToString(n: int)
    requires IsInt32(n)
    ensures ParseInt(IntToString(n)) == Some(n)
  {
    var s := IntToString(n);
    if n < 0 {
      var t := NatToString(-n);
      NatToStringDigits(-n);
      assert s == "-" + t && s[0] == '-' && s[1..] == t;
    } else {
      NatToStringDigits(n);
      assert IsDigit(s[0]);
    }
  }
}

=== FILE: wrappers.dfy ===
/** Failure-carrying values used throughout the model.

- Option<T> stands for a Java reference that may be null.
- Result<T> stands for a Java call that either returns a value or lets an
  unchecked exception escape; the exception is named by JavaException.
 */
module Wrappers {

  /** A nullable Java reference: None is null. */
  datatype Option<+T> = None | Some(value: T)

  /** The unchecked exceptions that the modelled code lets escape to its caller. */
  datatype JavaException =
    | ArrayIndexOutOfBounds   // reading past the end of a varargs array
    | StringIndexOutOfBounds  // String.substring past the end of a string
    | ClassCast               // casting a DOM text node to Element
    | IllegalState            // an invalid write scope
    | NullPointer             // dereferencing a null element

  /** Either the value a call returns, or the exception it throws. */
  datatype Result<+T> = Success(value: T) | Failure(error: JavaException)
}
